=== FILE: README.md ===
# Game-mode gateway and project showcase, in Dafny

This project models two parts of the portfolio site's front end.

- `GameModeManager` (js/game-mode.js) hosts a 3D game in an iframe. It accepts
  `postMessage` traffic from the game only after four checks: origin allowlist,
  object structure, type allowlist and per-type payload schema. It dispatches the
  five accepted message kinds (`GAME_PROJECT_OPEN`, `GAME_SCORE_UPDATE`,
  `GAME_READY`, `GAME_ERROR`, `GAME_ACHIEVEMENT`). It also drives the game's
  lifecycle:
  - switching between the cards view and the game view;
  - building the frame and noticing when it loads;
  - pause and resume on tab visibility;
  - resize forwarding;
  - posting the project list once the game has settled;
  - `destroy`.
- The project modal of js/projects.js covers:
  - the static catalogue `projectsData`;
  - the rule table choosing a modal's buttons;
  - the notification icon and colour lookups with their fallback to `info`;
  - the open/close/Escape behaviour of the modal;
  - the cards/game mode toggle.

Files:

- `wrappers.dfy`: `Option`.
- `js_values.dfy`: the slice of JavaScript semantics the code relies on.
  - Strings are sequences of UTF-16 code units, so that a length is what `.length` returns.
  - Structured-clone values, `typeof`, truthiness, property reads (`?.` and plain `.`).
  - The truncating `%` on numbers.
- `gateway.dfy`: `isValidMessage`, `validateMessageData` and the decoding of an
  accepted payload into a `Message`, plus the `Encode` direction a well-behaved game uses.
- `projects.dfy`: the catalogue, `generateModalActions`, the notification lookups,
  the modal and the mode toggle.
- `game_mode.dfy`: the manager as a state machine.
  - Every browser callback is an `Event`: a mode button click, a `setTimeout`
    callback or the continuation after the HEAD probe firing, the frame's `load`/`error`, a `message`, `visibilitychange`,
    `resize`, the window `error`, a listener of the project modal, or `beforeunload`.
  - `Step` applies one event and `Run` applies a sequence of them.
  - Messages posted to the game accumulate in an outbox.
  - What the page shows (notifications, achievements, fallback cards) accumulates in a list of effects.

Behaviour of the code, as modelled:

- `loadGame` reuses an existing frame only once it has loaded. A frame that is
  still loading is replaced by a new one.
- Unless the page is served from `file:`, `createGameFrame` first awaits a HEAD
  probe of `mario3d.html`, and only then builds the frame. The build is therefore a
  pending callback, and the check in `loadGame` can be overtaken by events. A
  double click on the game button queues a second build while the first frame is
  still loading. That build then attaches a second frame after the first has
  loaded (`GameMode.ProbeRaceRebuildsLoadedFrame`), or after `destroy`
  (`GameMode.PendingBuildOutlivesDestroy`).
- `destroy` never resets `isGameLoaded` or `isGameMode`. Pending timers keep
  running. The mode buttons stay live, so a destroyed manager can build another
  frame (`GameMode.DestroyDuringLoadIsNotFinal`). `destroy` is not terminal.
- `timeStarted` is overwritten every time a load settles.
- A `GAME_ERROR` without `data` (or with `data: null`) passes validation. The
  handler then throws on `data.message`, and the `try` swallows it: a handler
  fault that changes nothing.
- A handler also faults when the value it writes into markup cannot be converted
  to a string. This happens when the error message or the achievement kind is an
  object with its own `toString`: a cloned value carries no functions, so that
  `toString` is not callable, and the conversion throws a TypeError.
- Arrays pass the structure check (`typeof [] === 'object'`), and structured
  clone keeps their named properties. So an array with a `type` property is
  validated like an object.
- `isValidScore` accepts non-integers. Milestones are decided by JavaScript's `%`,
  so a fractional score never reaches one.
- Length limits count UTF-16 code units. An achievement text of 100 astral characters (most emoji) is rejected.
- `projectsData[id]` on a plain object literal is also truthy for the names every
  object inherits. `constructor` passes the gateway's `[a-z-]+` check, and opening
  it from the game makes `generateModalContent` throw. The manager catches the
  throw and shows an error notification.

## Model

| member | source | states |
|---|---|---|
| Gateway.NamesDistinct | js/game-mode.js:16-23 | the five allowlisted type names are pairwise different |
| Gateway.MatchesIdPattern | js/game-mode.js:455-460 | `/^[a-z-]+$/` holds exactly when the text is non-empty and every code unit is a lower-case ASCII letter or `-` |
| Gateway.Decode | js/game-mode.js:375-434 | a payload is decoded exactly when `isValidMessage` accepts it; another origin, or a payload that is neither object nor array, is always dropped; a decoded message satisfies its type's schema and carries the announced type; its fields are the payload's `data.projectId`, `data.score` and `data.coins`, `data` itself, or `data.message` and `data.type` |
| Gateway.Encode | js/game-mode.js:384-405 | the payload a game posts for a message is an object whose `type` is that message's type name |
| Gateway.DecodedKindIff | js/game-mode.js:397-403 | a payload reaches the `GAME_ERROR` (or `GAME_ACHIEVEMENT`) branch exactly when it is valid and its `type` is that name |
| Gateway.DecodeEncode | js/game-mode.js:375-453 | every well-formed message posted from the page's own origin is accepted and read back unchanged |
| Gateway.DecodeReadsOnlySchemaFields | js/game-mode.js:375-453 | two payloads that agree on `type` and on the schema fields of that type are accepted or rejected together and decode to the same message, whatever else they carry |
| Gateway.DecodeOnlyReadsEncodedFields | js/game-mode.js:384-405 | the encoding of a decoded message agrees with the original payload on `type` and every schema field, and decodes to the same message |
| Gateway.UnknownTypeRejected | js/game-mode.js:426-430 | a `type` string outside the allowlist is rejected even from the page's own origin |
| Gateway.ProjectOpenAcceptedIff | js/game-mode.js:436-460 | `GAME_PROJECT_OPEN` is accepted if and only if `data.projectId` is a string of 1 to 49 code units, each in `[a-z-]` |
| Gateway.ScoreUpdateAcceptedIff | js/game-mode.js:441-466 | `GAME_SCORE_UPDATE` is accepted if and only if `score` and `coins` are both numbers in [0, 1000000) |
| Gateway.AchievementAcceptedIff | js/game-mode.js:445-448 | `GAME_ACHIEVEMENT` is accepted if and only if `data.message` is a string of 1 to 199 code units |
| Gateway.ReadyAndErrorAlwaysAccepted | js/game-mode.js:436-453 | `GAME_READY` and `GAME_ERROR` pass whatever their data, even none |
| Gateway.LongAchievementRejected | js/game-mode.js:445-448 | an achievement text of 200 code units or more is rejected |
| Gateway.AstralAchievementRejected | js/game-mode.js:445-448 | 100 astral characters are 200 code units, so such an achievement is rejected |
| Gateway.EncodedAchievementAcceptedIff | js/game-mode.js:445-448 | an achievement posted by the game is accepted if and only if its text is 1 to 199 code units long, whatever its kind |
| Gateway.AchievementLengthInCharacters | js/game-mode.js:445-448 | counted in characters, an achievement text is accepted if and only if it is non-empty and its characters plus its astral characters number fewer than 200 |
| JsValues.Utf16Length | js/game-mode.js:447-448 | the `.length` of a text is its number of characters plus its number of astral characters |
| JsValues.AllAstralDoubles | js/game-mode.js:447-448 | a text made only of astral characters has twice as many code units as characters |
| JsValues.TypeOf | js/game-mode.js:422 | `typeof` is `'object'` exactly for `null`, arrays and objects |
| JsValues.Get | js/game-mode.js:439-448 | `v?.key` reads an own property of an object or array and is `undefined` for any other value or a missing key |
| JsValues.Access | js/game-mode.js:397-398 | `data.message` throws exactly when `data` is `undefined` or `null`, and otherwise reads like `data?.message` |
| JsValues.ToStringThrowsOnlyOnProps | js/game-mode.js:531-545 | only objects and arrays (both truthy) can make a string conversion throw; an object without its own `toString` never does; a plain array throws exactly when one of its elements does |
| JsValues.Trunc | js/game-mode.js:520-528 | rounding toward zero: the floor on non-negative numbers, the identity on whole numbers |
| JsValues.RemainderZeroIff | js/game-mode.js:520-528 | `a % b === 0` holds if and only if `a / b` is a whole number |
| JsValues.RemainderOfNaturals | js/game-mode.js:520-528 | on whole non-negative numbers, JavaScript's `%` agrees with the integer remainder |
| Projects.Emit | js/projects.js:321-365 | one row of the button rules: the button appears exactly when its condition holds, and nothing else appears |
| Projects.EmitBeforeRanked | js/projects.js:321-365 | placing a row before rows of higher rank keeps the buttons in strictly increasing rank |
| Projects.LaterActionsRanked | js/projects.js:340-362 | the demo, play and in-development buttons come in that order, after download and document |
| Projects.ModalActionsOrdered | js/projects.js:321-365 | the buttons always come in the order download, document, demo, play, in development, each at most once |
| Projects.ModalActionsPresence | js/projects.js:321-365 | each button is present if and only if its condition holds (download only for a completed project with an archive), and every button carries the project's own link |
| Projects.InProgressNeverDownloads | js/projects.js:324-362 | a project in development never offers its archive and always shows the disabled button |
| Projects.AppCommunicanteActions | js/projects.js:4-144 | the catalogue's project in development shows exactly its document and the disabled button |
| Projects.LookupOrInfo | js/projects.js:502-520 | `table[key]` or else `table.info`: a known key gives its own entry; an unknown key that is not an inherited member name falls back to `info` |
| Projects.UnknownKindFallsBackToInfo | js/projects.js:502-520 | a notification type outside the four known ones gets the `info` icon and colour |
| Projects.KnownKindsAreDistinct | js/projects.js:502-520 | the icon and colour tables cover the same four types, and the four colours differ |
| Projects.OpenProjectModal | js/projects.js:230-252 | a known id shows the modal, locks scrolling and fills it with that project and its buttons; an unknown id changes nothing; an inherited member name throws |
| Projects.CloseProjectModal | js/projects.js:255-259 | closing hides the modal and unlocks scrolling, keeping the content |
| Projects.KeyDown | js/projects.js:221-226 | Escape closes the modal only while it is shown; any other key, or a hidden modal, changes nothing |
| Projects.ModalReact | js/projects.js:195-226 | a key press acts as `keydown`, a close click closes, a card button opens its project; the listener throws exactly for a card whose id is an inherited member name missing from the catalogue |
| Projects.OpenThenClose | js/projects.js:230-259 | opening a known project and closing it leaves that project's content loaded and the page scrollable |
| Projects.ClickModeButton | js/projects.js:158-184 | after a mode click exactly the clicked button is active and exactly one of the two views is shown: the cards view if and only if the mode is `cards` |
| Projects.ClickIsIdempotent | js/projects.js:158-184 | clicking the same mode button twice is the same as once |
| GameMode.Init | js/game-mode.js:4-39 | a new manager keeps the page's origin and protocol, has no frame, no frame built, nothing pending, all flags down, empty statistics, outbox and effects, listeners attached, with the full catalogue and a closed modal when the showcase exists, and satisfies the invariant |
| GameMode.SendMessageToGame | js/game-mode.js:603-611 | a message is posted only when the frame is attached and loaded; otherwise nothing changes |
| GameMode.PauseGame | js/game-mode.js:613-618 | pause raises the paused flag only on a loaded game and posts `GAME_PAUSE` only on the first pause |
| GameMode.ResumeGame | js/game-mode.js:620-625 | resume lowers the paused flag on a loaded game and posts `GAME_RESUME` only when it was paused |
| GameMode.PauseIdempotent | js/game-mode.js:613-618 | pausing twice is pausing once |
| GameMode.ResumeIdempotent | js/game-mode.js:620-625 | resuming twice is resuming once |
| GameMode.ResumeUndoesPause | js/game-mode.js:613-625 | on a running game, pause then resume restores the flags and posts exactly one pause and one resume |
| GameMode.HandleVisibilityChange | js/game-mode.js:648-654 | a hidden page pauses; a visible page resumes only in game mode |
| GameMode.HideAndShowRoundTrip | js/game-mode.js:648-654 | hiding and showing the tab while playing pauses and resumes exactly once |
| GameMode.HandleResize | js/game-mode.js:656-666 | the new size is posted only in game mode to an attached, loaded frame |
| GameMode.ControlsBeforeLoadAreNoOps | js/game-mode.js:603-666 | before the game has loaded, pause, resume, visibility changes and resizes change nothing |
| GameMode.AttachFrame | js/game-mode.js:236-273 | the rest of `createGameFrame`: a new frame replaces whatever the container held, so the frame is attached, one more frame has been built, and nothing else changes |
| GameMode.LoadGame | js/game-mode.js:202-236 | with a loaded frame, loading only resumes; otherwise a new frame is built at once under `file:`, and elsewhere after the HEAD probe, as a pending callback |
| GameMode.LoadWhileLoadingRebuilds | js/game-mode.js:202-216 | a frame still loading is not reused: a second load builds another one, at once under `file:` and otherwise once its probe settles |
| GameMode.OnGameLoaded | js/game-mode.js:329-342 | the loaded flag rises at once and the rest is scheduled |
| GameMode.SettleLoad | js/game-mode.js:333-340 | when the load settles the project list is posted (if deliverable), `timeStarted` is overwritten with the current time and a success notice is shown |
| GameMode.OnGameError | js/game-mode.js:344-348 | an error notification with the given message is shown and nothing else changes |
| GameMode.SwitchMode | js/game-mode.js:123-200 | `cards` pauses at once and schedules the view change; `game` schedules the view change; any other mode changes nothing |
| GameMode.HandleGlobalError | js/game-mode.js:668-673 | an uncaught page error is reported only in game mode |
| GameMode.HandleModalInput | js/projects.js:195-226 | a modal listener changes only the modal, and does nothing without a showcase; a listener that throws reaches the window's `error` listener, which reports it only in game mode |
| GameMode.EscapeClosesProjectOpenedByGame | js/projects.js:221-259 | after the game opens a known project, Escape hides the modal and unlocks scrolling, keeps the project's content, and changes nothing else |
| GameMode.Destroy | js/game-mode.js:809-840 | destroy detaches listeners and frame and posts `GAME_DESTROY` only to a deliverable loaded game; nothing else changes: flags, timers, statistics, effects and the showcase stay as they were |
| GameMode.DestroyIdempotent | js/game-mode.js:809-840 | destroying twice (both `beforeunload` listeners) has the effect of destroying once |
| GameMode.HandleProjectOpen | js/game-mode.js:468-488 | the id is recorded as visited; with a modal manager the modal opens with a notice, or an error is reported when opening throws; without one the fallback card appears |
| GameMode.InheritedProjectIdReportsError | js/game-mode.js:468-488 | `constructor` is a valid project id, and opening it reports an error and leaves the modal as it was |
| GameMode.UpdateGameScore | js/game-mode.js:514-529 | score and coins become the maximum of stored and reported; a coins achievement pops if and only if coins is a positive multiple of 10, and a score one if and only if score is a positive multiple of 1000; each at most once, coins before score, and nothing else is shown |
| GameMode.MilestonesOnWholeNumbers | js/game-mode.js:520-528 | on whole numbers the milestone tests are the integer divisibility tests |
| GameMode.Dispatch | js/game-mode.js:384-412 | each kind runs its handler: project-open and score-update run theirs; `GAME_READY` shows one ready notice; `GAME_ERROR` shows `data.message`, or `'Erreur inconnue du jeu'` when that is falsy; an achievement shows its text with kind `'default'` when none is given; a message faults exactly when `data` is missing or null for `GAME_ERROR`, or when the shown message or kind cannot be converted to a string; a fault changes nothing; no message touches the lifecycle, frame, timers or outbox |
| GameMode.HandleSecureMessage | js/game-mode.js:375-412 | a message is rejected if and only if validation fails; a foreign origin changes nothing |
| GameMode.HandlerFaultIff | js/game-mode.js:397-410 | the handler faults if and only if the payload is valid and either a `GAME_ERROR` whose `data` is missing or null or whose `data.message` cannot be converted to a string, or a `GAME_ACHIEVEMENT` whose `data.type` cannot be |
| GameMode.AchievementWithOwnToStringFaults | js/game-mode.js:531-533 | an achievement whose kind is an object with its own `toString` passes validation, then faults and shows nothing |
| GameMode.ProjectOpenRecordsVisit | js/game-mode.js:468-472 | an accepted project-open records its id, a valid id, as visited |
| GameMode.ScoreUpdateKeepsMaximum | js/game-mode.js:514-518 | an accepted score update stores the maxima, and the reported values are in range |
| GameMode.ChildPausedAppend | js/game-mode.js:613-625 | the game's idea of "paused" follows the last pause or resume it received |
| GameMode.SendPreservesInv | js/game-mode.js:603-611 | posting a non-control message keeps the invariant |
| GameMode.PausePreservesInv | js/game-mode.js:613-618 | pause keeps the invariant, in particular the last pause or resume posted agrees with the host's paused flag while the listeners are attached or under `file:` |
| GameMode.ResumePreservesInv | js/game-mode.js:620-625 | resume keeps the invariant |
| GameMode.LoadGamePreservesInv | js/game-mode.js:202-216 | loading keeps the invariant |
| GameMode.DispatchPreservesInv | js/game-mode.js:384-412 | handling an accepted message keeps the invariant |
| GameMode.MessagePreservesInv | js/game-mode.js:375-412 | handling any message keeps the invariant |
| GameMode.RunTimerPreservesInv | js/game-mode.js:166-200 | a timer callback keeps the invariant |
| GameMode.DestroyPreservesInv | js/game-mode.js:809-840 | destroy keeps the invariant |
| GameMode.RunPreservesInv | js/game-mode.js:94-109 | every state reachable from an invariant state by any sequence of events satisfies the invariant |
| GameMode.DispatchGrows | js/game-mode.js:384-412 | no message lowers score or coins, forgets a visit or retracts a posted message |
| GameMode.MessageGrows | js/game-mode.js:375-412 | the same for any message, accepted or not |
| GameMode.TimerGrows | js/game-mode.js:166-200 | the same for a timer callback |
| GameMode.FireGrows | js/game-mode.js:166-200 | each timer callback never lowers score or coins, forgets a visit or retracts a posted message |
| GameMode.SwitchModeGrows | js/game-mode.js:123-149 | the same for a mode click |
| GameMode.VisibilityGrows | js/game-mode.js:648-654 | the same for a visibility change |
| GameMode.DestroyGrows | js/game-mode.js:809-840 | the same for destroy |
| GameMode.ModeClickKeeps | js/game-mode.js:60-74 | a mode click keeps the invariant and the growth guarantees |
| GameMode.TimerKeeps | js/game-mode.js:166-200 | a timer callback keeps the invariant, and on a loaded game with no build waiting builds no frame and starts no build |
| GameMode.FireOnLoadedGame | js/game-mode.js:166-216 | on a loaded game, a reveal or settle callback builds no frame, starts no build, and posts nothing to a removed frame |
| GameMode.FrameEventKeeps | js/game-mode.js:260-266 | the frame's `load` and `error` callbacks keep the invariant |
| GameMode.MessageKeeps | js/game-mode.js:96 | a `message` event keeps the invariant |
| GameMode.VisibilityKeeps | js/game-mode.js:99 | a `visibilitychange` event keeps the invariant |
| GameMode.ResizeKeeps | js/game-mode.js:102 | a `resize` event keeps the invariant |
| GameMode.PageErrorKeeps | js/game-mode.js:108 | a window `error` event keeps the invariant |
| GameMode.ShowcaseInputKeeps | js/projects.js:195-226 | a modal listener keeps the invariant and the growth guarantees |
| GameMode.UnloadKeeps | js/game-mode.js:1045-1050 | `beforeunload`, which runs destroy twice, keeps the invariant and posts nothing to a destroyed game |
| GameMode.StepKeeps | js/game-mode.js:94-109 | every event keeps the invariant and the growth guarantees; on a loaded game with no build waiting it builds no frame, starts no build, and posts nothing to a removed frame |
| GameMode.RunGrows | js/game-mode.js:514-529 | over any run score and coins never decrease, visits are never forgotten, and posted messages are never retracted |
| GameMode.LoadedFrameIsNeverRebuilt | js/game-mode.js:202-206 | once a frame has loaded, no event builds another one or starts waiting to, provided the page is served from `file:` or no build is already waiting for its HEAD probe |
| GameMode.DestroyedGameHearsNothing | js/game-mode.js:809-827 | after a loaded game's frame is removed, no sequence of events posts anything more, provided the page is served from `file:` or no build is waiting for its HEAD probe |
| GameMode.InitIsFresh | js/game-mode.js:4-39 | construction leaves no frame, nothing pending, nothing posted and empty statistics |
| GameMode.FirstVisitScenario | js/game-mode.js:184-236 | over HTTP the first visit builds one frame once the probe settles, and once loaded and settled that frame receives exactly the project list, timestamped |
| GameMode.DestroyDuringLoadIsNotFinal | js/game-mode.js:809-840 | under `file:`, a manager destroyed while loading builds a second frame on the next visit, with listeners gone |
| GameMode.DoubleClickOpeningReaches | js/game-mode.js:184-236 | over HTTP, two clicks on the game button reach a state where the game has loaded in the first frame while a second build waits for its probe |
| GameMode.ProbeRaceRebuildsLoadedFrame | js/game-mode.js:202-236 | from that state the waiting build attaches a second frame to a loaded game, and the project list is posted to it before it loads |
| GameMode.PendingBuildOutlivesDestroy | js/game-mode.js:809-827 | from that state `beforeunload` removes the loaded game's frame, yet the waiting build attaches a new one, to which a click on the cards button posts `GAME_PAUSE` |
| GameMode.LowercaseIdIsValid | js/game-mode.js:455-460 | a text of 1 to 49 lower-case letters and hyphens is a valid project id |
| GameMode.ProjectIdsAreValid | js/game-mode.js:705-756 | every id in the game's project list passes the project-id check |
| GameMode.CatalogMatchesGameList | js/game-mode.js:705-756 | the game's project list and the modal catalogue have the same five ids |

## Left out

- Animations, CSS, the loading overlay and its fake progress bar, durations of timers: presentation only. Timers are kept as pending callbacks that may fire in any order.
- The HEAD probe of `createGameFrame` and the iframe's contents: network and foreign code. The probe never fails a load, so its outcome is not modelled, only the wait for it (a `BuildFrame` callback). The `showGameLoading` call after the build is presentation.
- Messages are not attributed to frames. A frame built after an earlier one had loaded starts a fresh game, which the outbox, shared by all frames, does not record.
- GameMode.PausePreservesInv: the agreement between the last pause or resume posted and the host's paused flag is promised only while the listeners are attached or under `file:`. After `destroy` over HTTP a waiting build can attach a new frame to a host whose flag changed while no frame could receive.
- Fullscreen, achievement sounds, analytics (`gtag`), the download, document and demo handlers and `window.open`: browser APIs with no effect on the state modelled.
- `Date.now()` is a parameter of the timer event. The theme and `updateModeButtons` styling are not modelled.
- NaN and the infinities: numbers are reals, so `isValidScore` on NaN is not represented.
- Cloneable values other than plain objects, arrays and the primitives undefined, null, booleans, numbers and strings are not represented: BigInt, `Error`, `Date`, `Map`, `Set`, typed arrays and the like. An `Error` used as `data` is represented only by an object with the same own properties.
- `Get` ignores prototype members for the keys the gateway reads (`type`, `data`, `projectId`, `score`, `coins`, `message`), none of which `Object.prototype`, `Array.prototype` or the primitive prototypes define. An array's index properties and `length` are never read by name.
- Project fields that do not affect behaviour (description, technologies, images) are not modelled. A missing link and an empty link are both modelled as "".
- `getGameStats` and the `achievements` array of the statistics: read-only or never written.
- Failures of construction and a missing mode container are assumed absent. `showErrorNotification`'s routing between the showcase and the game's own notifications is abstracted to one `ErrorNotice` effect.
- The removal of notification elements in `destroy`: DOM only.
- Projects.NotificationIcon: has no contract of its own. `Projects.LookupOrInfo` and `Projects.UnknownKindFallsBackToInfo` state its behaviour, and an inherited member name (`toString`, say) yields that member rather than `info`.
- Projects.NotificationColor: as for `Projects.NotificationIcon`.
- Gateway.IsValidMessage: no contract of its own. `Gateway.Decode` is accepted exactly when it holds, and the per-type `AcceptedIff` lemmas spell it out.
- Gateway.ValidateMessageData: as for `Gateway.IsValidMessage`.
- Gateway.IsValidProjectId: no contract of its own. `Gateway.ProjectOpenAcceptedIff` and `GameMode.LowercaseIdIsValid` state it.
- Gateway.IsValidScore: no contract of its own. `Gateway.ScoreUpdateAcceptedIff` states it.
- GameMode.CoinsMilestoneReached: no contract of its own. `GameMode.UpdateGameScore` and `GameMode.MilestonesOnWholeNumbers` state it.
- GameMode.ScoreMilestoneReached: as for `GameMode.CoinsMilestoneReached`.
- Projects.ModalActions: no contract of its own. `Projects.ModalActionsOrdered` and `Projects.ModalActionsPresence` state it.
- JsValues.ToStringThrows: no contract of its own. `JsValues.ToStringThrowsOnlyOnProps` and `GameMode.HandlerFaultIff` state its role.
- GameMode.SettleLoad: one clock reading serves as both the `PORTFOLIO_INIT` timestamp and `timeStarted`, whereas the code reads the clock twice in a row (js/game-mode.js:336 and 370). The model does not distinguish the two readings.
- Projects.ClickModeButton: the showcase's own toggle of the `active` classes on the mode buttons and the two views is not part of the manager's state, so no event applies it. `GameMode.SwitchMode` models the manager's listener on the same buttons.
- GameMode.RunTimer, GameMode.Fire, GameMode.Step and GameMode.Run: no contract of their own. The per-event `Keeps` lemmas and `GameMode.RunPreservesInv` state their properties.

=== FILE: game_mode.dfy ===
/** `GameModeManager` of js/game-mode.js as a state machine: the lifecycle flags
    `isGameMode`, `isGameLoaded` and `isGamePaused`, the embedded frame, the pending
    timer callbacks, the session statistics, the messages posted to the game (the
    outbox) and what the page shows in response (the effects). Every browser
    callback is an `Event`; `Step` applies one. */
module GameMode {
  import opened Wrappers
  import opened JsValues
  import Gateway
  import Projects

  /** The `gameFrame` reference: none yet, in the page, or removed from the page
      (the reference survives, but its `contentWindow` is null). */
  datatype FrameSlot = NoFrame | Attached | Detached

  /** A pending `setTimeout` callback that changes the state. */
  datatype Timer =
    | RevealCards   // second half of showCardsMode (400 ms)
    | RevealGame    // second half of showGameMode (300 ms)
    | LoadSettled   // second half of onGameLoaded (2 s)
    | BuildFrame    // rest of createGameFrame, once the HEAD probe has settled

  /** A message posted into the game frame. */
  datatype Outbound =
    | PortfolioInit(projectIds: seq<JsString>, timestamp: int)
    | Pause
    | Resume
    | Resize(width: int, height: int)
    | DestroyGame

  datatype Milestone = CoinsMilestone | ScoreMilestone

  /** What the page shows: notifications, achievement pop-ups, the fallback card
      shown when the project modal is unavailable. */
  datatype Effect =
    | ReadyNotice
    | LoadedNotice
    | ErrorNotice(message: JsValue)
    | OpeningNotice(projectId: JsString)
    | ProjectFallback(projectId: JsString)
    | MilestoneAchievement(milestone: Milestone, value: real)
    | GameAchievement(text: JsValue, kind: JsValue)

  /** `gameStats`. `timeStarted` is a timestamp supplied by the clock event. */
  datatype Stats = Stats(score: real, coins: real, timeStarted: Option<int>, visited: set<JsString>)

  /** `window.ProjectsManager` as the manager sees it: the catalogue its modal reads
      and the modal itself. */
  datatype Showcase = Showcase(catalog: map<JsString, Projects.Project>, modal: Projects.Modal)

  /** The manager. `ownOrigin` is `window.location.origin`; `fileProtocol` whether
      `window.location.protocol` is `file:`; `showcase` is None when
      `window.ProjectsManager` does not exist; `listening` whether the `message`,
      `visibilitychange` and `resize` listeners are attached. */
  datatype State = State(
    ownOrigin: JsString,
    fileProtocol: bool,
    showcase: Option<Showcase>,
    isGameMode: bool,
    isGameLoaded: bool,
    isGamePaused: bool,
    frame: FrameSlot,
    framesCreated: nat,
    listening: bool,
    timers: seq<Timer>,
    stats: Stats,
    outbox: seq<Outbound>,
    effects: seq<Effect>)

  /** How `handleSecureMessage` ended: dropped by validation, handled, or a handler
      threw and the exception was swallowed. */
  datatype Outcome = Rejected | Handled | HandlerFault
  datatype Delivery = Delivery(outcome: Outcome, state: State)

  /** The browser callbacks the manager reacts to. `now` is `Date.now()` when a timer fires. */
  datatype Event =
    | ModeClick(mode: Option<JsString>)
    | FireTimer(index: nat, now: int)
    | FrameLoad
    | FrameError
    | MessageEvent(origin: JsString, payload: JsValue)
    | VisibilityChange(hidden: bool)
    | WindowResize(width: int, height: int)
    | PageError
    | ShowcaseInput(input: Projects.ModalInput)
    | BeforeUnload

  const CardsModeName: JsString := Bmp("cards")
  const GameModeName: JsString := Bmp("game")
  const UnknownErrorText: JsString := Bmp("Erreur inconnue du jeu")
  const LoadErrorText: JsString := Bmp("Erreur de chargement du jeu")
  const DefaultKind: JsString := Bmp("default")
  const OpenErrorText: JsString := Bmp("Erreur lors de l'ouverture du projet")
  const PageErrorText: JsString := Bmp("Une erreur est survenue dans le jeu")

  /** The ids of `getProjectsList`, in order. */
  const ProjectIds: seq<JsString> := [
    Bmp("gestion-vols"), Bmp("transport-propre"), Bmp("planification-aerien"),
    Bmp("street-fighter"), Bmp("app-communicante")]

  predicate InScoreRange(v: real) {
    0.0 <= v < Gateway.ScoreLimit
  }

  function Max(a: real, b: real): real {
    if a >= b then a else b
  }

  /** `initializeGameStats`. */
  const InitialStats := Stats(0.0, 0.0, None, {})

  /** The constructor followed by `init`: no frame, all flags down, listeners attached. */
  function Init(ownOrigin: JsString, fileProtocol: bool, presenter: bool): (s: State)
    ensures Inv(s)
    ensures s.ownOrigin == ownOrigin && s.fileProtocol == fileProtocol
    ensures s.listening && !s.isGameMode && !s.isGameLoaded && !s.isGamePaused
    ensures s.frame == NoFrame && s.framesCreated == 0 && s.timers == []
    ensures s.outbox == [] && s.effects == [] && s.stats == InitialStats
    ensures s.showcase.Some? <==> presenter
    ensures presenter ==> s.showcase == Some(Showcase(Projects.Catalog, Projects.ClosedModal))
  {
    var showcase := if presenter then Some(Showcase(Projects.Catalog, Projects.ClosedModal)) else None;
    State(ownOrigin, fileProtocol, showcase, false, false, false, NoFrame, 0, true, [], InitialStats, [], [])
  }

  // ---------------------------------------------------------------------------
  // Outbound control

  /** `gameFrame && gameFrame.contentWindow && isGameLoaded`. */
  predicate CanDeliver(s: State) {
    s.frame.Attached? && s.isGameLoaded
  }

  /** `sendMessageToGame`: anything else is dropped silently. */
  function SendMessageToGame(s: State, m: Outbound): (s': State)
    ensures CanDeliver(s) ==> s'.outbox == s.outbox + [m]
    ensures !CanDeliver(s) ==> s' == s
    ensures s' == s.(outbox := s'.outbox)
  {
    if CanDeliver(s) then s.(outbox := s.outbox + [m]) else s
  }

  /** `pauseGame`. */
  function PauseGame(s: State): (s': State)
    ensures s'.isGamePaused == (s.isGamePaused || s.isGameLoaded)
    ensures s'.outbox == s.outbox + (if CanDeliver(s) && !s.isGamePaused then [Pause] else [])
    ensures s' == s.(isGamePaused := s'.isGamePaused, outbox := s'.outbox)
  {
    if s.isGameLoaded && !s.isGamePaused then
      SendMessageToGame(s, Pause).(isGamePaused := true)
    else s
  }

  /** `resumeGame`. */
  function ResumeGame(s: State): (s': State)
    ensures s'.isGamePaused == (s.isGamePaused && !s.isGameLoaded)
    ensures s'.outbox == s.outbox + (if CanDeliver(s) && s.isGamePaused then [Resume] else [])
    ensures s' == s.(isGamePaused := s'.isGamePaused, outbox := s'.outbox)
  {
    if s.isGameLoaded && s.isGamePaused then
      SendMessageToGame(s, Resume).(isGamePaused := false)
    else s
  }

  /** A second pause sends nothing and changes nothing. */
  lemma PauseIdempotent(s: State)
    ensures PauseGame(PauseGame(s)) == PauseGame(s)
    ensures |PauseGame(PauseGame(s)).outbox| <= |s.outbox| + 1
  {
  }

  /** A second resume sends nothing and changes nothing. */
  lemma ResumeIdempotent(s: State)
    ensures ResumeGame(ResumeGame(s)) == ResumeGame(s)
    ensures |ResumeGame(ResumeGame(s)).outbox| <= |s.outbox| + 1
  {
  }

  /** Resume undoes pause on a running game: the flags are back where they were and
      the game received exactly one pause and one resume. */
  lemma ResumeUndoesPause(s: State)
    requires CanDeliver(s) && !s.isGamePaused
    ensures ResumeGame(PauseGame(s)) == s.(outbox := s.outbox + [Pause, Resume])
  {
  }

  /** `handleVisibilityChange`: a hidden page pauses; a visible one resumes, but only
      in game mode. */
  function HandleVisibilityChange(s: State, hidden: bool): (s': State)
    ensures hidden ==> s' == PauseGame(s)
    ensures !hidden ==> s' == (if s.isGameMode then ResumeGame(s) else s)
  {
    if hidden then PauseGame(s)
    else if s.isGameMode then ResumeGame(s)
    else s
  }

  /** Hiding the tab and showing it again while playing pauses and resumes the game
      exactly once and leaves the flags as they were. */
  lemma HideAndShowRoundTrip(s: State)
    requires CanDeliver(s) && s.isGameMode && !s.isGamePaused
    ensures HandleVisibilityChange(HandleVisibilityChange(s, true), false)
            == s.(outbox := s.outbox + [Pause, Resume])
  {
    ResumeUndoesPause(s);
  }

  /** `handleResize`: the new size is posted only in game mode to a loaded frame. */
  function HandleResize(s: State, width: int, height: int): (s': State)
    ensures s'.outbox == s.outbox + (if s.isGameMode && CanDeliver(s) then [Resize(width, height)] else [])
    ensures s' == s.(outbox := s'.outbox)
  {
    if s.isGameMode && s.isGameLoaded then SendMessageToGame(s, Resize(width, height)) else s
  }

  /** Before the frame reports its load, every control operation is a no-op. */
  lemma ControlsBeforeLoadAreNoOps(s: State, hidden: bool, width: int, height: int)
    requires !s.isGameLoaded
    ensures PauseGame(s) == s && ResumeGame(s) == s
    ensures HandleVisibilityChange(s, hidden) == s
    ensures HandleResize(s, width, height) == s
  {
  }

  // ---------------------------------------------------------------------------
  // Loading

  /** The part of `createGameFrame` after its HEAD probe: a new frame replaces
      whatever the container held. */
  function AttachFrame(s: State): (s': State)
    ensures s'.frame.Attached? && s'.framesCreated == s.framesCreated + 1
    ensures s' == s.(frame := Attached, framesCreated := s'.framesCreated)
  {
    s.(frame := Attached, framesCreated := s.framesCreated + 1)
  }

  /** Whether a `createGameFrame` call is suspended at its HEAD probe. */
  predicate BuildPending(s: State) {
    BuildFrame in s.timers
  }

  /** `loadGame`: an existing frame is reused only once it has loaded; otherwise
      `createGameFrame` builds a new one. Under `file:` it builds at once; elsewhere
      it first awaits a HEAD probe, which never fails the build, so the frame is
      attached by a later callback. */
  function LoadGame(s: State): (s': State)
    ensures s.frame != NoFrame && s.isGameLoaded ==> s' == ResumeGame(s)
    ensures !(s.frame != NoFrame && s.isGameLoaded) && s.fileProtocol ==> s' == AttachFrame(s)
    ensures !(s.frame != NoFrame && s.isGameLoaded) && !s.fileProtocol ==>
      s' == s.(timers := s.timers + [BuildFrame])
  {
    if s.frame != NoFrame && s.isGameLoaded then ResumeGame(s)
    else if s.fileProtocol then AttachFrame(s)
    else s.(timers := s.timers + [BuildFrame])
  }

  /** A frame that is still loading is not reused: a second load builds another one,
      at once or after the probe. */
  lemma LoadWhileLoadingRebuilds(s: State)
    requires s.frame.Attached? && !s.isGameLoaded
    ensures s.fileProtocol ==> LoadGame(s).framesCreated == s.framesCreated + 1
    ensures !s.fileProtocol ==> BuildPending(LoadGame(s))
    ensures LoadGame(s).frame.Attached? && LoadGame(s).outbox == s.outbox
  {
  }

  /** `onGameLoaded`: the flag is raised at once; the rest waits for a timer. */
  function OnGameLoaded(s: State): (s': State)
    ensures s'.isGameLoaded
    ensures s'.timers == s.timers + [LoadSettled]
    ensures s' == s.(isGameLoaded := true, timers := s'.timers)
  {
    s.(isGameLoaded := true, timers := s.timers + [LoadSettled])
  }

  /** The timer of `onGameLoaded`: posts the catalogue to the game and (re)starts the
      session clock, overwriting any earlier start time. */
  function SettleLoad(s: State, now: int): (s': State)
    ensures s'.stats.timeStarted == Some(now)
    ensures s'.outbox == s.outbox + (if CanDeliver(s) then [PortfolioInit(ProjectIds, now)] else [])
    ensures s'.effects == s.effects + [LoadedNotice]
    ensures s'.stats == s.stats.(timeStarted := Some(now))
    ensures s' == s.(stats := s'.stats, outbox := s'.outbox, effects := s'.effects)
  {
    var sent := SendMessageToGame(s, PortfolioInit(ProjectIds, now));
    sent.(stats := sent.stats.(timeStarted := Some(now)), effects := sent.effects + [LoadedNotice])
  }

  /** `onGameError`: an error notification; the loading overlay is not modelled. */
  function OnGameError(s: State, message: JsValue): (s': State)
    ensures s'.effects == s.effects + [ErrorNotice(message)]
    ensures s' == s.(effects := s'.effects)
  {
    s.(effects := s.effects + [ErrorNotice(message)])
  }

  // ---------------------------------------------------------------------------
  // Mode switching

  /** `switchMode`: leaving for the cards pauses the game at once; either view
      change completes in a timer. Any other mode only restyles the buttons. */
  function SwitchMode(s: State, mode: Option<JsString>): (s': State)
    ensures mode == Some(CardsModeName) ==> s' == PauseGame(s).(timers := s.timers + [RevealCards])
    ensures mode == Some(GameModeName) ==> s' == s.(timers := s.timers + [RevealGame])
    ensures mode != Some(CardsModeName) && mode != Some(GameModeName) ==> s' == s
  {
    if mode == Some(CardsModeName) then PauseGame(s).(timers := s.timers + [RevealCards])
    else if mode == Some(GameModeName) then s.(timers := s.timers + [RevealGame])
    else s
  }

  /** The pending timers without the one at `i`. */
  function RemoveAt(timers: seq<Timer>, i: nat): (rest: seq<Timer>)
    requires i < |timers|
    ensures |rest| == |timers| - 1
    ensures forall t :: t in rest ==> t in timers
  {
    timers[..i] + timers[i + 1..]
  }

  /** What the callback `t` does once it has left the pending timers. */
  function Fire(s: State, t: Timer, now: int): State {
    match t
    case RevealCards => s.(isGameMode := false)
    case RevealGame => LoadGame(s.(isGameMode := true))
    case LoadSettled => SettleLoad(s, now)
    case BuildFrame => AttachFrame(s)
  }

  /** Runs the pending timer at `index` (timers may fire in any order). */
  function RunTimer(s: State, index: nat, now: int): (s': State)
  {
    if index >= |s.timers| then s
    else Fire(s.(timers := RemoveAt(s.timers, index)), s.timers[index], now)
  }

  /** `handleGlobalError`: an uncaught page error is reported only in game mode. */
  function HandleGlobalError(s: State): (s': State)
    ensures s.isGameMode ==> s'.effects == s.effects + [ErrorNotice(Str(PageErrorText))]
    ensures !s.isGameMode ==> s' == s
    ensures s' == s.(effects := s'.effects)
  {
    if s.isGameMode then OnGameError(s, Str(PageErrorText)) else s
  }

  /** A listener of the showcase's modal. Its changes stay within the modal; when
      it throws, the uncaught exception reaches the window's `error` listener. */
  function HandleModalInput(s: State, input: Projects.ModalInput): (s': State)
    ensures s.showcase.None? ==> s' == s
    ensures s.showcase.Some? ==>
      var sc := s.showcase.value;
      match Projects.ModalReact(sc.catalog, sc.modal, input)
      case Some(m) => s'.showcase == Some(sc.(modal := m)) && s'.effects == s.effects
      case None => s' == HandleGlobalError(s)
    ensures s'.showcase.Some? == s.showcase.Some?
    ensures s.showcase.Some? ==> s'.showcase.value.catalog == s.showcase.value.catalog
    ensures s' == s.(showcase := s'.showcase, effects := s'.effects)
  {
    match s.showcase
    case None => s
    case Some(sc) =>
      match Projects.ModalReact(sc.catalog, sc.modal, input)
      case Some(m) => s.(showcase := Some(sc.(modal := m)))
      case None => HandleGlobalError(s)
  }

  /** A project the game opened is closed by Escape: the modal is hidden, scrolling
      is back, the project's content stays, and nothing else changes. */
  lemma EscapeClosesProjectOpenedByGame(s: State, id: JsString)
    requires s.showcase.Some? && id in s.showcase.value.catalog
    ensures var shown := HandleProjectOpen(s, id);
      var closed := HandleModalInput(shown, Projects.KeyPress(Bmp("Escape")));
      && closed.showcase.Some?
      && !closed.showcase.value.modal.active && !closed.showcase.value.modal.scrollLocked
      && closed.showcase.value.modal.body == Some(Projects.ModalBody(s.showcase.value.catalog[id], Projects.ModalActions(s.showcase.value.catalog[id])))
      && closed == shown.(showcase := closed.showcase)
  {
  }

  // ---------------------------------------------------------------------------
  // Teardown

  /** `destroy`: detaches the listeners, tells a loaded game to stop and removes the
      frame. `isGameLoaded`, `isGameMode` and the pending timers are left as they are. */
  function Destroy(s: State): (s': State)
    ensures !s'.listening && !s'.frame.Attached?
    ensures s'.outbox == s.outbox + (if CanDeliver(s) then [DestroyGame] else [])
    ensures s'.isGameLoaded == s.isGameLoaded && s'.isGamePaused == s.isGamePaused
    ensures s'.isGameMode == s.isGameMode && s'.framesCreated == s.framesCreated
    ensures s.frame != NoFrame <==> s'.frame != NoFrame
    ensures s' == s.(listening := false, frame := s'.frame, outbox := s'.outbox)
  {
    var detached := s.(listening := false);
    var told := if detached.isGameLoaded then SendMessageToGame(detached, DestroyGame) else detached;
    told.(frame := if told.frame.Attached? then Detached else told.frame)
  }

  /** Destroying twice has the effect of destroying once. */
  lemma DestroyIdempotent(s: State)
    ensures Destroy(Destroy(s)) == Destroy(s)
  {
  }

  // ---------------------------------------------------------------------------
  // Inbound messages

  /** `handleProjectOpen`: the id joins the visited set, then the project modal opens
      (or the fallback card appears when there is no modal manager). When opening
      the modal throws, the error is caught and reported instead of the notice. */
  function HandleProjectOpen(s: State, id: JsString): (s': State)
    ensures s'.stats == s.stats.(visited := s.stats.visited + {id})
    ensures s.showcase.Some? ==>
      var sc := s.showcase.value;
      match Projects.OpenProjectModal(sc.catalog, sc.modal, id)
      case Some(m) => s'.showcase == Some(sc.(modal := m)) && s'.effects == s.effects + [OpeningNotice(id)]
      case None => s'.showcase == s.showcase && s'.effects == s.effects + [ErrorNotice(Str(OpenErrorText))]
    ensures s.showcase.Some? && id !in s.showcase.value.catalog ==> s'.showcase == s.showcase
    ensures s.showcase.None? ==> s'.showcase == None && s'.effects == s.effects + [ProjectFallback(id)]
    ensures s' == s.(stats := s'.stats, showcase := s'.showcase, effects := s'.effects)
  {
    var counted := s.(stats := s.stats.(visited := s.stats.visited + {id}));
    match s.showcase
    case Some(sc) =>
      (match Projects.OpenProjectModal(sc.catalog, sc.modal, id)
       case Some(m) => counted.(showcase := Some(sc.(modal := m)), effects := s.effects + [OpeningNotice(id)])
       case None => counted.(effects := s.effects + [ErrorNotice(Str(OpenErrorText))]))
    case None =>
      counted.(effects := s.effects + [ProjectFallback(id)])
  }

  /** `constructor` passes the gateway's project-id check but names a member every
      object inherits, so opening it from the game throws inside the modal code:
      the page reports an error and the modal stays as it was. */
  lemma InheritedProjectIdReportsError(s: State)
    requires s.showcase.Some? && Bmp("constructor") !in s.showcase.value.catalog
    ensures Gateway.IsValidProjectId(Str(Bmp("constructor")))
    ensures var s' := HandleProjectOpen(s, Bmp("constructor"));
      && s'.showcase == s.showcase
      && s'.effects == s.effects + [ErrorNotice(Str(OpenErrorText))]
  {
    LowercaseIdIsValid("constructor");
  }

  /** `coins > 0 && coins % 10 === 0`. */
  predicate CoinsMilestoneReached(coins: real) {
    coins > 0.0 && JsRemainder(coins, 10.0) == 0.0
  }

  /** `score > 0 && score % 1000 === 0`. */
  predicate ScoreMilestoneReached(score: real) {
    score > 0.0 && JsRemainder(score, 1000.0) == 0.0
  }

  /** `updateGameScore`: the stored values only rise, and an achievement pops for a
      positive multiple of 10 coins and of 1000 points, in that order. */
  function UpdateGameScore(s: State, score: real, coins: real): (s': State)
    ensures s'.stats.score >= s.stats.score && s'.stats.score >= score
    ensures s'.stats.score == s.stats.score || s'.stats.score == score
    ensures s'.stats.coins >= s.stats.coins && s'.stats.coins >= coins
    ensures s'.stats.coins == s.stats.coins || s'.stats.coins == coins
    ensures s'.stats.visited == s.stats.visited && s'.stats.timeStarted == s.stats.timeStarted
    ensures |s.effects| <= |s'.effects| <= |s.effects| + 2 && s'.effects[..|s.effects|] == s.effects
    ensures MilestoneAchievement(CoinsMilestone, coins) in s'.effects[|s.effects|..]
            <==> coins > 0.0 && IsIntegral(coins / 10.0)
    ensures MilestoneAchievement(ScoreMilestone, score) in s'.effects[|s.effects|..]
            <==> score > 0.0 && IsIntegral(score / 1000.0)
    ensures forall e :: e in s'.effects[|s.effects|..] ==>
      e == MilestoneAchievement(CoinsMilestone, coins) || e == MilestoneAchievement(ScoreMilestone, score)
    ensures s'.effects == s.effects
      + (if coins > 0.0 && IsIntegral(coins / 10.0) then [MilestoneAchievement(CoinsMilestone, coins)] else [])
      + (if score > 0.0 && IsIntegral(score / 1000.0) then [MilestoneAchievement(ScoreMilestone, score)] else [])
    ensures s' == s.(stats := s'.stats, effects := s'.effects)
  {
    RemainderZeroIff(coins, 10.0);
    RemainderZeroIff(score, 1000.0);
    var coinsPopup := if CoinsMilestoneReached(coins) then [MilestoneAchievement(CoinsMilestone, coins)] else [];
    var scorePopup := if ScoreMilestoneReached(score) then [MilestoneAchievement(ScoreMilestone, score)] else [];
    var added := coinsPopup + scorePopup;
    assert (s.effects + added)[|s.effects|..] == added;
    s.(stats := s.stats.(score := Max(s.stats.score, score), coins := Max(s.stats.coins, coins)),
       effects := s.effects + added)
  }

  /** On whole numbers the milestone rules are the familiar integer ones. */
  lemma MilestonesOnWholeNumbers(score: nat, coins: nat)
    ensures CoinsMilestoneReached(coins as real) <==> coins > 0 && coins % 10 == 0
    ensures ScoreMilestoneReached(score as real) <==> score > 0 && score % 1000 == 0
  {
    RemainderOfNaturals(coins, 10);
    RemainderOfNaturals(score, 1000);
  }

  /** What an inbound message never touches: the lifecycle, the frame, the timers,
      the listeners and the outbox. */
  ghost predicate LifecycleUnchanged(s: State, s': State) {
    && s'.ownOrigin == s.ownOrigin && s'.showcase.Some? == s.showcase.Some?
    && s'.isGameMode == s.isGameMode && s'.isGameLoaded == s.isGameLoaded
    && s'.isGamePaused == s.isGamePaused && s'.frame == s.frame
    && s'.framesCreated == s.framesCreated && s'.listening == s.listening
    && s'.timers == s.timers && s'.outbox == s.outbox
  }

  /** The switch of `handleSecureMessage` on an accepted message. A handler throws,
      and the exception is swallowed before anything is shown, when `GAME_ERROR`
      reads `data.message` on a missing or null `data`, or when the value a handler
      writes into markup cannot be converted to a string: the error message
      (`${message}` in the notification) or the achievement kind
      (`achievement-${type}` in the class name). */
  function Dispatch(s: State, m: Gateway.Message): (d: Delivery)
    ensures d.outcome.HandlerFault? <==>
      || (m.GameError? && (m.data.Undefined? || m.data.Null? || ToStringThrows(Get(m.data, Gateway.MessageKey))))
      || (m.Achievement? && ToStringThrows(m.kind))
    ensures d.outcome.HandlerFault? ==> d.state == s
    ensures !d.outcome.Rejected?
    ensures m.ProjectOpen? ==> d.state == HandleProjectOpen(s, m.projectId)
    ensures m.ScoreUpdate? ==> d.state == UpdateGameScore(s, m.score, m.coins)
    ensures m.Ready? ==> d.state == s.(effects := s.effects + [ReadyNotice])
    ensures m.GameError? && d.outcome.Handled? ==>
      var message := Get(m.data, Gateway.MessageKey);
      d.state == s.(effects := s.effects + [ErrorNotice(if Truthy(message) then message else Str(UnknownErrorText))])
    ensures m.Achievement? && d.outcome.Handled? ==>
      d.state == s.(effects := s.effects + [GameAchievement(Str(m.text), if m.kind.Undefined? then Str(DefaultKind) else m.kind)])
    ensures LifecycleUnchanged(s, d.state)
  {
    match m
    case ProjectOpen(id) => Delivery(Handled, HandleProjectOpen(s, id))
    case ScoreUpdate(score, coins) => Delivery(Handled, UpdateGameScore(s, score, coins))
    case Ready => Delivery(Handled, s.(effects := s.effects + [ReadyNotice]))
    case GameError(data) =>
      (match Access(data, Gateway.MessageKey)
       case None => Delivery(HandlerFault, s)
       case Some(message) =>
         var shown := if Truthy(message) then message else Str(UnknownErrorText);
         if ToStringThrows(shown) then Delivery(HandlerFault, s)
         else Delivery(Handled, OnGameError(s, shown)))
    case Achievement(text, kind) =>
      var shown := if kind.Undefined? then Str(DefaultKind) else kind;
      if ToStringThrows(shown) then Delivery(HandlerFault, s)
      else Delivery(Handled, s.(effects := s.effects + [GameAchievement(Str(text), shown)]))
  }

  /** `handleSecureMessage`. */
  function HandleSecureMessage(s: State, origin: JsString, payload: JsValue): (d: Delivery)
    ensures d.outcome.Rejected? <==> !Gateway.IsValidMessage(s.ownOrigin, origin, payload)
    ensures origin != s.ownOrigin ==> d == Delivery(Rejected, s)
    ensures !d.outcome.Handled? ==> d.state == s
    ensures LifecycleUnchanged(s, d.state)
  {
    match Gateway.Decode(s.ownOrigin, origin, payload)
    case None => Delivery(Rejected, s)
    case Some(m) => Dispatch(s, m)
  }

  /** An accepted message faults exactly when it is a `GAME_ERROR` whose `data` is
      missing or null or whose `data.message` cannot be converted to a string, or a
      `GAME_ACHIEVEMENT` whose `data.type` cannot be. */
  lemma HandlerFaultIff(s: State, origin: JsString, payload: JsValue)
    ensures HandleSecureMessage(s, origin, payload).outcome.HandlerFault? <==>
      && Gateway.IsValidMessage(s.ownOrigin, origin, payload)
      && var kind, data := Get(payload, Gateway.TypeKey), Get(payload, Gateway.DataKey);
         || (kind == Str(Gateway.ErrorName) &&
               (data.Undefined? || data.Null? || ToStringThrows(Get(data, Gateway.MessageKey))))
         || (kind == Str(Gateway.AchievementName) && ToStringThrows(Get(data, Gateway.TypeKey)))
  {
    Gateway.DecodedKindIff(s.ownOrigin, origin, payload);
  }

  /** Example: an achievement whose `type` is an object with its own `toString`
      passes validation, and then showing it throws: nothing is shown. */
  lemma AchievementWithOwnToStringFaults(s: State)
    ensures var kind := Object(map[ToStringKey := Number(0.0)]);
      var data := Object(map[Gateway.MessageKey := Str(Bmp("hi")), Gateway.TypeKey := kind]);
      var payload := Object(map[Gateway.TypeKey := Str(Gateway.AchievementName), Gateway.DataKey := data]);
      && Gateway.IsValidMessage(s.ownOrigin, s.ownOrigin, payload)
      && HandleSecureMessage(s, s.ownOrigin, payload) == Delivery(HandlerFault, s)
  {
    Gateway.NamesDistinct();
    var kind := Object(map[ToStringKey := Number(0.0)]);
    var data := Object(map[Gateway.MessageKey := Str(Bmp("hi")), Gateway.TypeKey := kind]);
    var payload := Object(map[Gateway.TypeKey := Str(Gateway.AchievementName), Gateway.DataKey := data]);
    assert Get(payload, Gateway.DataKey) == data;
    assert Get(data, Gateway.MessageKey) == Str(Bmp("hi"));
    assert Get(data, Gateway.TypeKey) == kind;
    HandlerFaultIff(s, s.ownOrigin, payload);
  }

  /** An accepted `GAME_PROJECT_OPEN` records a valid project id as visited. */
  lemma ProjectOpenRecordsVisit(s: State, origin: JsString, payload: JsValue)
    requires Gateway.Decode(s.ownOrigin, origin, payload).Some?
    requires Gateway.Decode(s.ownOrigin, origin, payload).value.ProjectOpen?
    ensures var id := Gateway.Decode(s.ownOrigin, origin, payload).value.projectId;
      && HandleSecureMessage(s, origin, payload).state.stats.visited == s.stats.visited + {id}
      && Gateway.IsValidProjectId(Str(id))
  {
  }

  /** An accepted score update keeps the larger of the stored and reported values. */
  lemma ScoreUpdateKeepsMaximum(s: State, origin: JsString, payload: JsValue)
    requires Gateway.Decode(s.ownOrigin, origin, payload).Some?
    requires Gateway.Decode(s.ownOrigin, origin, payload).value.ScoreUpdate?
    ensures var m := Gateway.Decode(s.ownOrigin, origin, payload).value;
      var stats := HandleSecureMessage(s, origin, payload).state.stats;
      && stats.score == Max(s.stats.score, m.score)
      && stats.coins == Max(s.stats.coins, m.coins)
      && InScoreRange(m.score) && InScoreRange(m.coins)
  {
  }

  // ---------------------------------------------------------------------------
  // Events

  /** One browser callback. The `message`, `visibilitychange` and `resize`
      listeners are gone after `destroy`; the mode buttons, frame callbacks, timers,
      the `error` listener and the two `beforeunload` listeners (each calling
      `destroy`) remain. */
  function Step(s: State, e: Event): State {
    match e
    case ModeClick(mode) => SwitchMode(s, mode)
    case FireTimer(index, now) => RunTimer(s, index, now)
    case FrameLoad => if s.frame.Attached? then OnGameLoaded(s) else s
    case FrameError => if s.frame.Attached? then OnGameError(s, Str(LoadErrorText)) else s
    case MessageEvent(origin, payload) =>
      if s.listening then HandleSecureMessage(s, origin, payload).state else s
    case VisibilityChange(hidden) => if s.listening then HandleVisibilityChange(s, hidden) else s
    case WindowResize(width, height) => if s.listening then HandleResize(s, width, height) else s
    case PageError => HandleGlobalError(s)
    case ShowcaseInput(input) => HandleModalInput(s, input)
    case BeforeUnload => Destroy(Destroy(s))
  }

  function Run(s: State, events: seq<Event>): State
    decreases |events|
  {
    if |events| == 0 then s else Run(Step(s, events[0]), events[1..])
  }

  /** Whether the game, judging from the control messages it has received, is paused. */
  function ChildPaused(sent: seq<Outbound>): bool
    decreases |sent|
  {
    if |sent| == 0 then false
    else if sent[|sent| - 1].Pause? then true
    else if sent[|sent| - 1].Resume? then false
    else ChildPaused(sent[..|sent| - 1])
  }

  lemma ChildPausedAppend(sent: seq<Outbound>, m: Outbound)
    ensures ChildPaused(sent + [m]) == (if m.Pause? then true else if m.Resume? then false else ChildPaused(sent))
  {
    assert (sent + [m])[..|sent|] == sent;
  }

  /** The manager's invariant. Control messages reach the game only after it
      loaded; a paused flag implies a loaded game; a removed frame means the
      listeners are gone; under `file:` no build waits for a probe; while the frame
      can receive, the last pause or resume posted agrees with the host's flag,
      except after `destroy` over HTTP, when a build that was waiting can attach a
      new frame to a host whose flag changed meanwhile; the session values stay
      within the schema; only valid project ids are recorded as visited. */
  ghost predicate Inv(s: State) {
    && (s.isGameLoaded ==> s.frame != NoFrame)
    && (s.isGamePaused ==> s.isGameLoaded)
    && (|s.outbox| > 0 ==> s.isGameLoaded)
    && (s.frame == NoFrame <==> s.framesCreated == 0)
    && (s.listening ==> !s.frame.Detached?)
    && (s.fileProtocol ==> !BuildPending(s))
    && ((s.listening || s.fileProtocol) && CanDeliver(s) ==> (ChildPaused(s.outbox) <==> s.isGamePaused))
    && InScoreRange(s.stats.score) && InScoreRange(s.stats.coins)
    && (forall id :: id in s.stats.visited ==> Gateway.IsValidProjectId(Str(id)))
  }

  lemma SendPreservesInv(s: State, m: Outbound)
    requires Inv(s) && !m.Pause? && !m.Resume?
    ensures Inv(SendMessageToGame(s, m))
  {
    ChildPausedAppend(s.outbox, m);
  }

  lemma PausePreservesInv(s: State)
    requires Inv(s)
    ensures Inv(PauseGame(s))
  {
    ChildPausedAppend(s.outbox, Pause);
  }

  lemma ResumePreservesInv(s: State)
    requires Inv(s)
    ensures Inv(ResumeGame(s))
  {
    ChildPausedAppend(s.outbox, Resume);
  }

  lemma LoadGamePreservesInv(s: State)
    requires Inv(s)
    ensures Inv(LoadGame(s))
  {
    if s.frame != NoFrame && s.isGameLoaded {
      ResumePreservesInv(s);
    }
  }

  lemma DispatchPreservesInv(s: State, m: Gateway.Message)
    requires Inv(s) && Gateway.WellFormed(m)
    ensures Inv(Dispatch(s, m).state)
  {
    match m
    case ProjectOpen(id) =>
      assert Dispatch(s, m).state == HandleProjectOpen(s, id);
    case ScoreUpdate(score, coins) =>
      assert Dispatch(s, m).state == UpdateGameScore(s, score, coins);
    case _ =>
  }

  lemma MessagePreservesInv(s: State, origin: JsString, payload: JsValue)
    requires Inv(s)
    ensures Inv(HandleSecureMessage(s, origin, payload).state)
  {
    var decoded := Gateway.Decode(s.ownOrigin, origin, payload);
    if decoded.Some? {
      DispatchPreservesInv(s, decoded.value);
    }
  }

  lemma RunTimerPreservesInv(s: State, index: nat, now: int)
    requires Inv(s)
    ensures Inv(RunTimer(s, index, now))
  {
    if index < |s.timers| {
      var rest := s.(timers := RemoveAt(s.timers, index));
      match s.timers[index]
      case RevealCards =>
      case RevealGame => LoadGamePreservesInv(rest.(isGameMode := true));
      case LoadSettled => SendPreservesInv(rest, PortfolioInit(ProjectIds, now));
      case BuildFrame =>
    }
  }

  lemma DestroyPreservesInv(s: State)
    requires Inv(s)
    ensures Inv(Destroy(s))
  {
    ChildPausedAppend(s.outbox, DestroyGame);
  }

  /** Every state reachable from construction satisfies the invariant. */
  lemma {:induction false} RunPreservesInv(s: State, events: seq<Event>)
    requires Inv(s)
    ensures Inv(Run(s, events))
    decreases |events|
  {
    if |events| > 0 {
      StepKeeps(s, events[0]);
      RunPreservesInv(Step(s, events[0]), events[1..]);
    }
  }

  /** What only ever grows: score, coins, the visited set, the outbox, the frame
      count, and the "loaded" flag; once detached the listeners stay detached. */
  ghost predicate Grows(s: State, s': State) {
    && s.stats.score <= s'.stats.score && s.stats.coins <= s'.stats.coins
    && s.stats.visited <= s'.stats.visited
    && s.outbox <= s'.outbox
    && s.framesCreated <= s'.framesCreated
    && (s.isGameLoaded ==> s'.isGameLoaded)
    && (!s.listening ==> !s'.listening)
    && s'.ownOrigin == s.ownOrigin && s'.showcase.Some? == s.showcase.Some?
    && (s.showcase.Some? ==> s'.showcase.value.catalog == s.showcase.value.catalog)
  }

  lemma DispatchGrows(s: State, m: Gateway.Message)
    ensures Grows(s, Dispatch(s, m).state)
  {
    match m
    case ProjectOpen(id) =>
      assert Dispatch(s, m).state == HandleProjectOpen(s, id);
    case ScoreUpdate(score, coins) =>
      assert Dispatch(s, m).state == UpdateGameScore(s, score, coins);
    case _ =>
  }

  lemma MessageGrows(s: State, origin: JsString, payload: JsValue)
    ensures Grows(s, HandleSecureMessage(s, origin, payload).state)
  {
    var decoded := Gateway.Decode(s.ownOrigin, origin, payload);
    if decoded.Some? {
      DispatchGrows(s, decoded.value);
    }
  }

  lemma FireGrows(s: State, t: Timer, now: int)
    ensures Grows(s, Fire(s, t, now))
  {
    match t
    case RevealCards =>
    case RevealGame =>
      var shown := s.(isGameMode := true);
      if shown.frame != NoFrame && shown.isGameLoaded {
        assert LoadGame(shown) == ResumeGame(shown);
      }
    case LoadSettled =>
      assert Fire(s, t, now) == SettleLoad(s, now);
    case BuildFrame =>
  }

  lemma TimerGrows(s: State, index: nat, now: int)
    ensures Grows(s, RunTimer(s, index, now))
  {
    if index < |s.timers| {
      FireGrows(s.(timers := RemoveAt(s.timers, index)), s.timers[index], now);
    }
  }

  lemma SwitchModeGrows(s: State, mode: Option<JsString>)
    ensures Grows(s, SwitchMode(s, mode))
  {
  }

  lemma VisibilityGrows(s: State, hidden: bool)
    ensures Grows(s, HandleVisibilityChange(s, hidden))
  {
  }

  lemma DestroyGrows(s: State)
    ensures Grows(s, Destroy(s))
  {
  }

  /** What any single event guarantees: the invariant is kept, what only grows
      grows, and once the game has loaded with no build waiting for its probe, no
      frame is built, no build starts waiting, and a destroyed game hears nothing
      more. */
  ghost predicate Keeps(s: State, s': State) {
    && Grows(s, s')
    && (Inv(s) ==> Inv(s'))
    && (Inv(s) && s.isGameLoaded && !BuildPending(s) ==>
          s'.framesCreated == s.framesCreated && !BuildPending(s'))
    && (Inv(s) && s.isGameLoaded && !BuildPending(s) && s.frame.Detached? ==>
          s'.outbox == s.outbox && s'.frame.Detached?)
  }

  lemma ModeClickKeeps(s: State, mode: Option<JsString>)
    ensures Keeps(s, Step(s, ModeClick(mode)))
  {
    SwitchModeGrows(s, mode);
    if Inv(s) && mode == Some(CardsModeName) {
      PausePreservesInv(s);
    }
  }

  /** A callback other than a frame build, run on a loaded game with no build
      waiting, builds nothing, starts no build, and posts nothing to a removed frame. */
  lemma FireOnLoadedGame(s: State, t: Timer, now: int)
    requires s.isGameLoaded && s.frame != NoFrame && !BuildPending(s) && !t.BuildFrame?
    ensures Fire(s, t, now).framesCreated == s.framesCreated && !BuildPending(Fire(s, t, now))
    ensures s.frame.Detached? ==> Fire(s, t, now).outbox == s.outbox && Fire(s, t, now).frame.Detached?
  {
    if t.RevealGame? {
      assert Fire(s, t, now) == ResumeGame(s.(isGameMode := true));
    }
  }

  lemma TimerKeeps(s: State, index: nat, now: int)
    ensures Keeps(s, Step(s, FireTimer(index, now)))
  {
    TimerGrows(s, index, now);
    if Inv(s) {
      RunTimerPreservesInv(s, index, now);
      if s.isGameLoaded && !BuildPending(s) && index < |s.timers| {
        var rest := s.(timers := RemoveAt(s.timers, index));
        assert !BuildPending(rest);
        FireOnLoadedGame(rest, s.timers[index], now);
      }
    }
  }

  lemma FrameEventKeeps(s: State, e: Event)
    requires e.FrameLoad? || e.FrameError?
    ensures Keeps(s, Step(s, e))
  {
    if !s.frame.Attached? {
      assert Step(s, e) == s;
    } else if e.FrameLoad? {
      assert Step(s, e) == OnGameLoaded(s);
      assert BuildPending(OnGameLoaded(s)) == BuildPending(s);
    } else {
      assert Step(s, e) == OnGameError(s, Str(LoadErrorText));
    }
  }

  lemma MessageKeeps(s: State, origin: JsString, payload: JsValue)
    ensures Keeps(s, Step(s, MessageEvent(origin, payload)))
  {
    MessageGrows(s, origin, payload);
    if Inv(s) {
      MessagePreservesInv(s, origin, payload);
    }
  }

  lemma VisibilityKeeps(s: State, hidden: bool)
    ensures Keeps(s, Step(s, VisibilityChange(hidden)))
  {
    VisibilityGrows(s, hidden);
    if Inv(s) {
      PausePreservesInv(s);
      ResumePreservesInv(s);
    }
  }

  lemma ResizeKeeps(s: State, width: int, height: int)
    ensures Keeps(s, Step(s, WindowResize(width, height)))
  {
    if Inv(s) {
      SendPreservesInv(s, Resize(width, height));
    }
  }

  lemma PageErrorKeeps(s: State)
    ensures Keeps(s, Step(s, PageError))
  {
  }

  lemma ShowcaseInputKeeps(s: State, input: Projects.ModalInput)
    ensures Keeps(s, Step(s, ShowcaseInput(input)))
  {
  }

  lemma UnloadKeeps(s: State)
    ensures Keeps(s, Step(s, BeforeUnload))
  {
    DestroyGrows(s);
    DestroyGrows(Destroy(s));
    if Inv(s) {
      DestroyPreservesInv(s);
      DestroyPreservesInv(Destroy(s));
    }
  }

  /** Every event keeps the invariant and the growth guarantees. */
  lemma StepKeeps(s: State, e: Event)
    ensures Keeps(s, Step(s, e))
  {
    match e
    case ModeClick(mode) => ModeClickKeeps(s, mode);
    case FireTimer(index, now) => TimerKeeps(s, index, now);
    case FrameLoad => FrameEventKeeps(s, e);
    case FrameError => FrameEventKeeps(s, e);
    case MessageEvent(origin, payload) => MessageKeeps(s, origin, payload);
    case VisibilityChange(hidden) => VisibilityKeeps(s, hidden);
    case WindowResize(width, height) => ResizeKeeps(s, width, height);
    case PageError => PageErrorKeeps(s);
    case ShowcaseInput(input) => ShowcaseInputKeeps(s, input);
    case BeforeUnload => UnloadKeeps(s);
  }

  /** Over any run, score and coins never decrease, no visit is forgotten and no
      message once posted is taken back. */
  lemma {:induction false} RunGrows(s: State, events: seq<Event>)
    ensures Grows(s, Run(s, events))
    decreases |events|
  {
    if |events| > 0 {
      StepKeeps(s, events[0]);
      RunGrows(Step(s, events[0]), events[1..]);
    }
  }

  /** Once a frame has loaded, no event builds another one, unless a build was
      already waiting for its HEAD probe; under `file:` none ever is. */
  lemma LoadedFrameIsNeverRebuilt(s: State, e: Event)
    requires Inv(s) && s.isGameLoaded && (s.fileProtocol || !BuildPending(s))
    ensures Step(s, e).framesCreated == s.framesCreated
    ensures !BuildPending(Step(s, e))
  {
    StepKeeps(s, e);
  }

  /** After a loaded game was destroyed nothing more reaches it, whatever happens,
      provided no build was waiting for its probe; under `file:` none ever is. */
  lemma {:induction false} DestroyedGameHearsNothing(s: State, events: seq<Event>)
    requires Inv(s) && s.isGameLoaded && s.frame.Detached?
    requires s.fileProtocol || !BuildPending(s)
    ensures Run(s, events).outbox == s.outbox
    ensures Run(s, events).frame.Detached?
    decreases |events|
  {
    if |events| > 0 {
      StepKeeps(s, events[0]);
      DestroyedGameHearsNothing(Step(s, events[0]), events[1..]);
    }
  }

  /** A manager that has not built a frame yet and has nothing pending, as `Init`
      leaves it. */
  predicate Fresh(s: State) {
    && s.frame == NoFrame && s.framesCreated == 0 && s.timers == [] && s.listening
    && !s.isGameLoaded && !s.isGamePaused && s.outbox == [] && s.stats == InitialStats
  }

  lemma FreshSatisfiesInv(s: State)
    requires Fresh(s)
    ensures Inv(s)
  {
  }

  lemma InitIsFresh(ownOrigin: JsString, fileProtocol: bool, presenter: bool)
    ensures Fresh(Init(ownOrigin, fileProtocol, presenter))
  {
  }

  /** The first visit to game mode over HTTP: one frame is built once the probe
      settles, and once it has loaded and settled it receives exactly one message,
      the project list. */
  lemma FirstVisitScenario(s0: State, t0: int, t1: int)
    requires Fresh(s0) && !s0.fileProtocol
    ensures var s := Run(s0, [ModeClick(Some(GameModeName)), FireTimer(0, t0), FireTimer(0, t0), FrameLoad, FireTimer(0, t1)]);
      && s.framesCreated == 1 && s.frame.Attached?
      && s.isGameMode && s.isGameLoaded && !s.isGamePaused
      && s.outbox == [PortfolioInit(ProjectIds, t1)]
      && s.stats.timeStarted == Some(t1)
  {
    var es := [ModeClick(Some(GameModeName)), FireTimer(0, t0), FireTimer(0, t0), FrameLoad, FireTimer(0, t1)];
    var s1 := Step(s0, es[0]);
    assert s1.timers == [RevealGame];
    var s2 := Step(s1, es[1]);
    assert s2.frame == NoFrame && s2.timers == [BuildFrame];
    var s3 := Step(s2, es[2]);
    assert s3.frame.Attached? && s3.framesCreated == 1 && s3.timers == [];
    var s4 := Step(s3, es[3]);
    assert s4.timers == [LoadSettled] && s4.isGameLoaded;
    var s5 := Step(s4, es[4]);
    assert s5.outbox == [PortfolioInit(ProjectIds, t1)];
    assert Run(s4, [es[4]]) == s5 by { assert [es[4]][1..] == []; }
    assert Run(s3, [es[3], es[4]]) == s5 by { assert [es[3], es[4]][1..] == [es[4]]; }
    assert Run(s2, [es[2], es[3], es[4]]) == s5 by { assert [es[2], es[3], es[4]][1..] == [es[3], es[4]]; }
    assert Run(s1, es[1..]) == s5 by { assert es[1..] == [es[1], es[2], es[3], es[4]]; }
  }

  /** `destroy` is not final: a manager destroyed while its frame was still loading
      builds another frame on the next switch to game mode, with its listeners gone. */
  lemma DestroyDuringLoadIsNotFinal(s0: State, t: int)
    requires Fresh(s0) && s0.fileProtocol
    ensures var s := Run(s0, [ModeClick(Some(GameModeName)), FireTimer(0, t), BeforeUnload,
                              ModeClick(Some(GameModeName)), FireTimer(0, t)]);
      && s.frame.Attached? && s.framesCreated == 2 && !s.listening
  {
    var es := [ModeClick(Some(GameModeName)), FireTimer(0, t), BeforeUnload,
               ModeClick(Some(GameModeName)), FireTimer(0, t)];
    var s1 := Step(s0, es[0]);
    var s2 := Step(s1, es[1]);
    assert s2.frame.Attached? && s2.framesCreated == 1 && s2.timers == [];
    var s3 := Step(s2, es[2]);
    assert s3.frame.Detached? && !s3.isGameLoaded;
    var s4 := Step(s3, es[3]);
    var s5 := Step(s4, es[4]);
    assert s5.frame.Attached? && s5.framesCreated == 2;
    RunSteps(s0, es);
  }

  /** Running two sequences one after the other is running their concatenation. */
  lemma {:induction false} RunConcat(s: State, a: seq<Event>, b: seq<Event>)
    ensures Run(s, a + b) == Run(Run(s, a), b)
    decreases |a|
  {
    if |a| == 0 {
      assert a + b == b;
    } else {
      assert (a + b)[1..] == a[1..] + b;
      RunConcat(Step(s, a[0]), a[1..], b);
    }
  }

  /** A run of five events is five steps. */
  lemma RunSteps(s: State, es: seq<Event>)
    requires |es| == 5
    ensures Run(s, es) == Step(Step(Step(Step(Step(s, es[0]), es[1]), es[2]), es[3]), es[4])
  {
    var s1 := Step(s, es[0]);
    var s2 := Step(s1, es[1]);
    var s3 := Step(s2, es[2]);
    var s4 := Step(s3, es[3]);
    assert Run(s4, es[4..]) == Step(s4, es[4]);
    assert Run(s3, es[3..]) == Run(s4, es[4..]) by { assert es[3..][1..] == es[4..]; }
    assert Run(s2, es[2..]) == Run(s3, es[3..]) by { assert es[2..][1..] == es[3..]; }
    assert Run(s1, es[1..]) == Run(s2, es[2..]) by { assert es[1..][1..] == es[2..]; }
  }

  /** Over HTTP, a double click on the game button: the first reveal waits for a
      probe, which attaches a frame; the second reveal finds that frame still loading
      and starts waiting for a second probe; then the first frame loads. */
  const DoubleClickOpening: seq<Event> := [
    ModeClick(Some(GameModeName)), ModeClick(Some(GameModeName)),
    FireTimer(0, 0), FireTimer(1, 0), FireTimer(0, 0), FrameLoad]

  /** The game has loaded in the first frame, and a second build waits for its probe. */
  ghost predicate LoadedWithBuildWaiting(s: State) {
    && Inv(s) && s.isGameLoaded && !s.isGamePaused && s.listening
    && s.frame.Attached? && s.framesCreated == 1 && s.outbox == []
    && s.timers == [BuildFrame, LoadSettled]
  }

  /** The first half of `DoubleClickOpening`: two reveals pending, one of them run. */
  lemma DoubleClickFirstHalf(s0: State)
    requires Fresh(s0) && !s0.fileProtocol
    ensures var s := Run(s0, DoubleClickOpening[..3]);
      && s.frame == NoFrame && s.timers == [RevealGame, BuildFrame]
      && s == s0.(isGameMode := true, timers := s.timers)
  {
    var es := DoubleClickOpening[..3];
    var s1 := Step(s0, es[0]);
    var s2 := Step(s1, es[1]);
    assert s2.timers == [RevealGame, RevealGame];
    var s3 := Step(s2, es[2]);
    assert s3.frame == NoFrame && s3.timers == [RevealGame, BuildFrame];
    assert Run(s2, es[2..]) == s3 by { assert es[2..] == [es[2]] && es[2..][1..] == []; }
    assert Run(s1, es[1..]) == s3 by { assert es[1..][1..] == es[2..]; }
  }

  /** The state `DoubleClickOpening` reaches from a fresh manager. */
  lemma DoubleClickOpeningReaches(s0: State)
    requires Fresh(s0) && !s0.fileProtocol
    ensures LoadedWithBuildWaiting(Run(s0, DoubleClickOpening))
  {
    var es := DoubleClickOpening;
    DoubleClickFirstHalf(s0);
    RunConcat(s0, es[..3], es[3..]);
    assert es[..3] + es[3..] == es;
    var s3 := Run(s0, es[..3]);
    var s4 := Step(s3, es[3]);
    assert s4.frame.Attached? && s4.framesCreated == 1 && s4.timers == [RevealGame];
    var s5 := Step(s4, es[4]);
    assert s5.timers == [BuildFrame] && s5.framesCreated == 1 && !s5.isGameLoaded;
    var s6 := Step(s5, es[5]);
    assert s6.timers == [BuildFrame, LoadSettled] && s6.isGameLoaded;
    assert Run(s5, es[5..]) == s6 by { assert es[5..] == [es[5]] && es[5..][1..] == []; }
    assert Run(s4, es[4..]) == s6 by { assert es[4..][1..] == es[5..]; }
    assert Run(s3, es[3..]) == s6 by { assert es[3..][1..] == es[4..]; }
    FreshSatisfiesInv(s0);
    RunPreservesInv(s0, es);
  }

  /** Over HTTP a loaded frame can be rebuilt: from the state `DoubleClickOpening`
      reaches, the waiting build attaches a second frame, and the settle step of the
      first frame's load posts the project list to the second frame, which has not
      loaded. */
  lemma ProbeRaceRebuildsLoadedFrame(s: State, t0: int, t1: int)
    requires LoadedWithBuildWaiting(s)
    ensures var s' := Run(s, [FireTimer(0, t0), FireTimer(0, t1)]);
      && s'.framesCreated == 2 && s'.frame.Attached? && s'.timers == []
      && s'.outbox == [PortfolioInit(ProjectIds, t1)]
  {
    var s7 := Step(s, FireTimer(0, t0));
    assert s7.framesCreated == 2 && s7.frame.Attached? && s7.timers == [LoadSettled];
    var s8 := Step(s7, FireTimer(0, t1));
    assert Run(s7, [FireTimer(0, t1)]) == s8 by { assert [FireTimer(0, t1)][1..] == []; }
    assert [FireTimer(0, t0), FireTimer(0, t1)][1..] == [FireTimer(0, t1)];
  }

  /** Over HTTP a destroyed game can hear more: from the state `DoubleClickOpening`
      reaches, `beforeunload` leaves a loaded game with its frame removed and a build
      still waiting; that build attaches a frame, and the still-live mode buttons then
      post a pause to it. */
  lemma PendingBuildOutlivesDestroy(s: State, t: int)
    requires LoadedWithBuildWaiting(s)
    ensures var destroyed := Run(s, [BeforeUnload]);
      && Inv(destroyed) && destroyed.isGameLoaded && destroyed.frame.Detached?
      && BuildPending(destroyed) && destroyed.outbox == [DestroyGame]
    ensures var s' := Run(Run(s, [BeforeUnload]), [FireTimer(0, t), ModeClick(Some(CardsModeName))]);
      && s'.frame.Attached? && !s'.listening && s'.outbox == [DestroyGame, Pause]
  {
    var s7 := Step(s, BeforeUnload);
    assert s7.outbox == [DestroyGame] && s7.timers == [BuildFrame, LoadSettled];
    assert Run(s, [BeforeUnload]) == s7 by { assert [BeforeUnload][1..] == []; }
    RunPreservesInv(s, [BeforeUnload]);
    var s8 := Step(s7, FireTimer(0, t));
    assert s8.frame.Attached? && s8.outbox == [DestroyGame];
    var s9 := Step(s8, ModeClick(Some(CardsModeName)));
    assert s9.outbox == [DestroyGame, Pause];
    assert Run(s8, [ModeClick(Some(CardsModeName))]) == s9 by { assert [ModeClick(Some(CardsModeName))][1..] == []; }
    assert [FireTimer(0, t), ModeClick(Some(CardsModeName))][1..] == [ModeClick(Some(CardsModeName))];
  }

  /** A non-empty lower-case text with hyphens, shorter than 50, is a valid id. */
  lemma LowercaseIdIsValid(s: string)
    requires 0 < |s| < Gateway.MaxProjectIdLength
    requires forall i :: 0 <= i < |s| ==> 'a' <= s[i] <= 'z' || s[i] == '-'
    ensures Gateway.IsValidProjectId(Str(Bmp(s)))
  {
    assert forall i :: 0 <= i < |s| ==> Gateway.IsIdUnit(Bmp(s)[i]);
  }

  /** Every id of the game's project list passes the gateway's project-id check, so
      a well-behaved game can open each of them. */
  lemma ProjectIdsAreValid()
    ensures forall i :: 0 <= i < |ProjectIds| ==> Gateway.IsValidProjectId(Str(ProjectIds[i]))
  {
    forall i | 0 <= i < |ProjectIds|
      ensures Gateway.IsValidProjectId(Str(ProjectIds[i]))
    {
      if i == 0 {
        assert ProjectIds[i] == Bmp("gestion-vols");
        LowercaseIdIsValid("gestion-vols");
      } else if i == 1 {
        assert ProjectIds[i] == Bmp("transport-propre");
        LowercaseIdIsValid("transport-propre");
      } else if i == 2 {
        assert ProjectIds[i] == Bmp("planification-aerien");
        LowercaseIdIsValid("planification-aerien");
      } else if i == 3 {
        assert ProjectIds[i] == Bmp("street-fighter");
        LowercaseIdIsValid("street-fighter");
      } else {
        assert ProjectIds[i] == Bmp("app-communicante");
        LowercaseIdIsValid("app-communicante");
      }
    }
  }

  /** The game's project list and the modal catalogue name the same five projects. */
  lemma CatalogMatchesGameList()
    ensures |ProjectIds| == 5
    ensures Projects.Catalog.Keys == set id | id in ProjectIds
  {
  }
}

=== FILE: gateway.dfy ===
/** The inbound side of the game-mode message channel (`GameModeManager` in
    js/game-mode.js): the four validation steps a `message` event passes — origin
    allowlist, structure, type allowlist, per-type payload schema — and the decoding
    of an accepted payload into one of five message kinds. */
module Gateway {
  import opened Wrappers
  import opened JsValues

  // The five message type names the host accepts.
  const ProjectOpenName: JsString := Bmp("GAME_PROJECT_OPEN")
  const ScoreUpdateName: JsString := Bmp("GAME_SCORE_UPDATE")
  const ReadyName: JsString := Bmp("GAME_READY")
  const ErrorName: JsString := Bmp("GAME_ERROR")
  const AchievementName: JsString := Bmp("GAME_ACHIEVEMENT")

  const AllowedTypes: seq<JsString> := [ProjectOpenName, ScoreUpdateName, ReadyName, ErrorName, AchievementName]

  // The property names the gateway reads.
  const TypeKey: JsString := Bmp("type")
  const DataKey: JsString := Bmp("data")
  const ProjectIdKey: JsString := Bmp("projectId")
  const ScoreKey: JsString := Bmp("score")
  const CoinsKey: JsString := Bmp("coins")
  const MessageKey: JsString := Bmp("message")

  /** Exclusive upper bounds of the schema. */
  const MaxProjectIdLength := 50
  const MaxAchievementLength := 200
  const ScoreLimit := 1000000.0

  /** The five type names are pairwise different, and so are the keys written
      side by side in one payload. */
  lemma NamesDistinct()
    ensures ProjectOpenName != ScoreUpdateName && ProjectOpenName != ReadyName
    ensures ProjectOpenName != ErrorName && ProjectOpenName != AchievementName
    ensures ScoreUpdateName != ReadyName && ScoreUpdateName != ErrorName
    ensures ScoreUpdateName != AchievementName
    ensures ReadyName != ErrorName && ReadyName != AchievementName
    ensures ErrorName != AchievementName
    ensures TypeKey != DataKey && ScoreKey != CoinsKey && MessageKey != TypeKey
  {
    assert ProjectOpenName[5] != ScoreUpdateName[5];
    assert ReadyName[5] != ErrorName[5];
    assert TypeKey[0] != DataKey[0];
    assert ScoreKey[0] != CoinsKey[0];
  }

  /** A code unit of the character class `[a-z-]`. */
  predicate IsIdUnit(u: CodeUnit) {
    'a' as int <= u <= 'z' as int || u == '-' as int
  }

  /** `/^[a-z-]+$/.test(s)`: one class character, then the rest of the text matched
      by the repetition. */
  function MatchesIdPattern(s: JsString): (r: bool)
    ensures r <==> |s| > 0 && forall i :: 0 <= i < |s| ==> IsIdUnit(s[i])
  {
    |s| > 0 && IsIdUnit(s[0]) && (|s| == 1 || MatchesIdPattern(s[1..]))
  }

  /** `isValidProjectId`. */
  predicate IsValidProjectId(v: JsValue) {
    && v.Str?
    && |v.s| > 0
    && |v.s| < MaxProjectIdLength
    && MatchesIdPattern(v.s)
  }

  /** `isValidScore`: no integrality is demanded. */
  predicate IsValidScore(v: JsValue) {
    && v.Number?
    && v.n >= 0.0
    && v.n < ScoreLimit
  }

  /** `validateMessageData`: the schema of the announced type; the two types without
      a schema always pass. */
  predicate ValidateMessageData(msg: JsValue) {
    var t := Get(msg, TypeKey);
    var data := Get(msg, DataKey);
    if t == Str(ProjectOpenName) then
      IsValidProjectId(Get(data, ProjectIdKey))
    else if t == Str(ScoreUpdateName) then
      IsValidScore(Get(data, ScoreKey)) && IsValidScore(Get(data, CoinsKey))
    else if t == Str(AchievementName) then
      var m := Get(data, MessageKey);
      TypeOf(m) == StringType && |m.s| > 0 && |m.s| < MaxAchievementLength
    else
      true
  }

  /** `isValidMessage`: the four checks in the source's order. The allowlist of
      origins holds the page's own origin only. */
  predicate IsValidMessage(ownOrigin: JsString, origin: JsString, payload: JsValue) {
    && origin in [ownOrigin]
    && Truthy(payload)
    && TypeOf(payload) == ObjectType
    && Get(payload, TypeKey).Str?
    && Get(payload, TypeKey).s in AllowedTypes
    && ValidateMessageData(payload)
  }

  /** An accepted message, as the dispatch switch reads it. `kind` is the
      achievement's optional `data.type`. */
  datatype Message =
    | ProjectOpen(projectId: JsString)
    | ScoreUpdate(score: real, coins: real)
    | Ready
    | GameError(data: JsValue)
    | Achievement(text: JsString, kind: JsValue)

  function TypeName(m: Message): JsString {
    match m
    case ProjectOpen(_) => ProjectOpenName
    case ScoreUpdate(_, _) => ScoreUpdateName
    case Ready => ReadyName
    case GameError(_) => ErrorName
    case Achievement(_, _) => AchievementName
  }

  /** The constraints a message satisfies once the schema has accepted it. */
  predicate WellFormed(m: Message) {
    match m
    case ProjectOpen(id) => IsValidProjectId(Str(id))
    case ScoreUpdate(score, coins) => IsValidScore(Number(score)) && IsValidScore(Number(coins))
    case Achievement(text, _) => 0 < |text| < MaxAchievementLength
    case _ => true
  }

  /** Validation followed by the `const { type, data } = event.data` read of
      `handleSecureMessage`: None when any check fails. */
  function Decode(ownOrigin: JsString, origin: JsString, payload: JsValue): (r: Option<Message>)
    ensures r.Some? <==> IsValidMessage(ownOrigin, origin, payload)
    ensures origin != ownOrigin ==> r.None?
    ensures !HasProps(payload) ==> r.None?
    ensures r.Some? ==> WellFormed(r.value) && Get(payload, TypeKey) == Str(TypeName(r.value))
    ensures r.Some? && r.value.ProjectOpen? ==>
      Get(Get(payload, DataKey), ProjectIdKey) == Str(r.value.projectId)
    ensures r.Some? && r.value.ScoreUpdate? ==>
      && Get(Get(payload, DataKey), ScoreKey) == Number(r.value.score)
      && Get(Get(payload, DataKey), CoinsKey) == Number(r.value.coins)
    ensures r.Some? && r.value.GameError? ==> r.value.data == Get(payload, DataKey)
    ensures r.Some? && r.value.Achievement? ==>
      && Get(Get(payload, DataKey), MessageKey) == Str(r.value.text)
      && Get(Get(payload, DataKey), TypeKey) == r.value.kind
  {
    NamesDistinct();
    if !IsValidMessage(ownOrigin, origin, payload) then None
    else
      var t := Get(payload, TypeKey).s;
      var data := Get(payload, DataKey);
      if t == ProjectOpenName then Some(ProjectOpen(Get(data, ProjectIdKey).s))
      else if t == ScoreUpdateName then Some(ScoreUpdate(Get(data, ScoreKey).n, Get(data, CoinsKey).n))
      else if t == ReadyName then Some(Ready)
      else if t == ErrorName then Some(GameError(data))
      else Some(Achievement(Get(data, MessageKey).s, Get(data, TypeKey)))
  }

  /** The payload a well-behaved game posts for a message. A `GAME_READY` carries no
      `data`; a `GAME_ERROR` carries its `data` as given. */
  function Encode(m: Message): (v: JsValue)
    ensures v.Object? && Get(v, TypeKey) == Str(TypeName(m))
  {
    NamesDistinct();
    var header := map[TypeKey := Str(TypeName(m))];
    match m
    case ProjectOpen(id) =>
      Object(header[DataKey := Object(map[ProjectIdKey := Str(id)])])
    case ScoreUpdate(score, coins) =>
      Object(header[DataKey := Object(map[ScoreKey := Number(score), CoinsKey := Number(coins)])])
    case Ready =>
      Object(header)
    case GameError(data) =>
      Object(header[DataKey := data])
    case Achievement(text, kind) =>
      Object(header[DataKey := Object(map[MessageKey := Str(text), TypeKey := kind])])
  }

  /** A payload decodes to a `GAME_ERROR`, or to a `GAME_ACHIEVEMENT`, exactly when
      it is accepted and announces that type. */
  lemma DecodedKindIff(ownOrigin: JsString, origin: JsString, payload: JsValue)
    ensures var r := Decode(ownOrigin, origin, payload);
      (r.Some? && r.value.GameError?) <==>
        IsValidMessage(ownOrigin, origin, payload) && Get(payload, TypeKey) == Str(ErrorName)
    ensures var r := Decode(ownOrigin, origin, payload);
      (r.Some? && r.value.Achievement?) <==>
        IsValidMessage(ownOrigin, origin, payload) && Get(payload, TypeKey) == Str(AchievementName)
  {
    NamesDistinct();
  }

  /** Round trip: every well-formed message the game posts from the page's own
      origin is accepted and read back unchanged. */
  lemma DecodeEncode(ownOrigin: JsString, m: Message)
    requires WellFormed(m)
    ensures Decode(ownOrigin, ownOrigin, Encode(m)) == Some(m)
  {
    NamesDistinct();
    var v := Encode(m);
    var data := Get(v, DataKey);
    match m
    case ProjectOpen(id) =>
      assert Get(data, ProjectIdKey) == Str(id);
    case ScoreUpdate(score, coins) =>
      assert Get(data, ScoreKey) == Number(score);
      assert Get(data, CoinsKey) == Number(coins);
    case Ready =>
    case GameError(d) =>
    case Achievement(text, kind) =>
      assert Get(data, MessageKey) == Str(text);
      assert Get(data, TypeKey) == kind;
  }

  /** Two payloads agree on everything the gateway reads: both have properties or
      neither has, they announce the same `type`, and they agree on the fields of
      that type's schema (the whole `data` for `GAME_ERROR`, none for `GAME_READY`). */
  ghost predicate SameReadFields(p: JsValue, q: JsValue) {
    var t := Get(p, TypeKey);
    var dp, dq := Get(p, DataKey), Get(q, DataKey);
    && (HasProps(p) <==> HasProps(q))
    && Get(q, TypeKey) == t
    && (t == Str(ProjectOpenName) ==> Get(dp, ProjectIdKey) == Get(dq, ProjectIdKey))
    && (t == Str(ScoreUpdateName) ==>
          Get(dp, ScoreKey) == Get(dq, ScoreKey) && Get(dp, CoinsKey) == Get(dq, CoinsKey))
    && (t == Str(ErrorName) ==> dp == dq)
    && (t == Str(AchievementName) ==>
          Get(dp, MessageKey) == Get(dq, MessageKey) && Get(dp, TypeKey) == Get(dq, TypeKey))
  }

  /** The gateway reads nothing else: payloads that agree on the read fields are
      accepted or rejected together and decode to the same message, whatever other
      properties either carries. */
  lemma DecodeReadsOnlySchemaFields(ownOrigin: JsString, origin: JsString, p: JsValue, q: JsValue)
    requires SameReadFields(p, q)
    ensures Decode(ownOrigin, origin, p) == Decode(ownOrigin, origin, q)
  {
    NamesDistinct();
    assert ValidateMessageData(p) == ValidateMessageData(q);
    assert IsValidMessage(ownOrigin, origin, p) == IsValidMessage(ownOrigin, origin, q);
  }

  /** The encoding of a decoded message reproduces every field the gateway read from
      the original payload, so it decodes to the same message. */
  lemma DecodeOnlyReadsEncodedFields(ownOrigin: JsString, origin: JsString, payload: JsValue)
    requires Decode(ownOrigin, origin, payload).Some?
    ensures SameReadFields(Encode(Decode(ownOrigin, origin, payload).value), payload)
    ensures Decode(ownOrigin, origin, Encode(Decode(ownOrigin, origin, payload).value))
            == Decode(ownOrigin, origin, payload)
  {
    NamesDistinct();
    var m := Decode(ownOrigin, origin, payload).value;
    var v := Encode(m);
    var data := Get(v, DataKey);
    match m {
      case ProjectOpen(id) =>
        assert Get(data, ProjectIdKey) == Str(id);
      case ScoreUpdate(score, coins) =>
        assert Get(data, ScoreKey) == Number(score);
        assert Get(data, CoinsKey) == Number(coins);
      case Ready =>
      case GameError(d) =>
      case Achievement(text, kind) =>
        assert Get(data, MessageKey) == Str(text);
        assert Get(data, TypeKey) == kind;
    }
    assert SameReadFields(v, payload);
    DecodeReadsOnlySchemaFields(ownOrigin, origin, v, payload);
  }

  /** A payload from the page's own origin whose `type` is a string outside the five
      names is rejected. */
  lemma UnknownTypeRejected(ownOrigin: JsString, payload: JsValue)
    requires Get(payload, TypeKey).Str?
    requires Get(payload, TypeKey).s !in [ProjectOpenName, ScoreUpdateName, ReadyName, ErrorName, AchievementName]
    ensures Decode(ownOrigin, ownOrigin, payload).None?
  {
  }

  /** `GAME_PROJECT_OPEN` is accepted exactly when `data.projectId` is a string of
      1 to 49 code units, each a lower-case ASCII letter or a hyphen. */
  lemma ProjectOpenAcceptedIff(ownOrigin: JsString, payload: JsValue)
    requires HasProps(payload) && Get(payload, TypeKey) == Str(ProjectOpenName)
    ensures Decode(ownOrigin, ownOrigin, payload).Some? <==>
      var id := Get(Get(payload, DataKey), ProjectIdKey);
      && id.Str?
      && 0 < |id.s| < 50
      && forall i :: 0 <= i < |id.s| ==> 'a' as int <= id.s[i] <= 'z' as int || id.s[i] == '-' as int
  {
  }

  /** `GAME_SCORE_UPDATE` is accepted exactly when both `score` and `coins` are
      numbers in [0, 1000000). */
  lemma ScoreUpdateAcceptedIff(ownOrigin: JsString, payload: JsValue)
    requires HasProps(payload) && Get(payload, TypeKey) == Str(ScoreUpdateName)
    ensures Decode(ownOrigin, ownOrigin, payload).Some? <==>
      var data := Get(payload, DataKey);
      var score, coins := Get(data, ScoreKey), Get(data, CoinsKey);
      && score.Number? && 0.0 <= score.n < 1000000.0
      && coins.Number? && 0.0 <= coins.n < 1000000.0
  {
    NamesDistinct();
  }

  /** `GAME_ACHIEVEMENT` is accepted exactly when `data.message` is a string of 1 to
      199 code units. */
  lemma AchievementAcceptedIff(ownOrigin: JsString, payload: JsValue)
    requires HasProps(payload) && Get(payload, TypeKey) == Str(AchievementName)
    ensures Decode(ownOrigin, ownOrigin, payload).Some? <==>
      var text := Get(Get(payload, DataKey), MessageKey);
      text.Str? && 0 < |text.s| < 200
  {
    NamesDistinct();
  }

  /** `GAME_READY` and `GAME_ERROR` pass whatever their `data` is, even none. */
  lemma ReadyAndErrorAlwaysAccepted(ownOrigin: JsString, payload: JsValue)
    requires HasProps(payload)
    requires Get(payload, TypeKey) == Str(ReadyName) || Get(payload, TypeKey) == Str(ErrorName)
    ensures Decode(ownOrigin, ownOrigin, payload).Some?
  {
    NamesDistinct();
  }

  /** An achievement text of 200 code units or more is rejected. */
  lemma LongAchievementRejected(ownOrigin: JsString, text: JsString, kind: JsValue)
    requires |text| >= MaxAchievementLength
    ensures Decode(ownOrigin, ownOrigin, Encode(Achievement(text, kind))).None?
  {
    NamesDistinct();
    var payload := Encode(Achievement(text, kind));
    assert Get(Get(payload, DataKey), MessageKey) == Str(text);
    assert !ValidateMessageData(payload);
  }

  /** The length bound is in UTF-16 code units: an achievement text of 100 astral
      characters (most emoji among them) is 200 code units long and is rejected. */
  lemma AstralAchievementRejected(ownOrigin: JsString, text: string, kind: JsValue)
    requires |text| == 100
    requires forall i :: 0 <= i < |text| ==> IsAstral(text[i])
    ensures Decode(ownOrigin, ownOrigin, Encode(Achievement(Utf16(text), kind))).None?
  {
    AllAstralDoubles(text);
    LongAchievementRejected(ownOrigin, Utf16(text), kind);
  }

  /** The achievement a game posts is accepted exactly when its text is 1 to 199
      code units long, whatever its `kind`. */
  lemma EncodedAchievementAcceptedIff(ownOrigin: JsString, text: JsString, kind: JsValue)
    ensures Decode(ownOrigin, ownOrigin, Encode(Achievement(text, kind))).Some?
            <==> 0 < |text| < MaxAchievementLength
  {
    var payload := Encode(Achievement(text, kind));
    assert Get(Get(payload, DataKey), MessageKey) == Str(text);
    AchievementAcceptedIff(ownOrigin, payload);
  }

  /** Counted in characters, an achievement text is accepted exactly when it is not
      empty and its characters plus its astral characters number fewer than 200. */
  lemma AchievementLengthInCharacters(ownOrigin: JsString, text: string, kind: JsValue)
    ensures Decode(ownOrigin, ownOrigin, Encode(Achievement(Utf16(text), kind))).Some?
            <==> 0 < |text| && |text| + AstralCount(text) < MaxAchievementLength
  {
    var units := Utf16(text);
    assert |units| == |text| + AstralCount(text) && (0 < |units| <==> 0 < |text|) by {
      Utf16Length(text);
      assert |text| == 0 ==> AstralCount(text) == 0;
    }
    EncodedAchievementAcceptedIff(ownOrigin, units, kind);
  }
}

=== FILE: js_values.dfy ===
/** The slice of JavaScript's value semantics that the game-mode gateway relies on:
    strings as UTF-16 code units (so that `.length` counts what the browser counts),
    structured-clone payloads, `typeof`, truthiness, property reads and the `%`
    operator on numbers. */
module JsValues {
  import opened Wrappers

  /** One UTF-16 code unit. A JavaScript string is a sequence of these and its
      `.length` is the number of code units, not of characters. */
  type CodeUnit = u: int | 0 <= u < 0x1_0000

  type JsString = seq<CodeUnit>

  /** Characters outside the Basic Multilingual Plane take two code units. */
  predicate IsAstral(c: char) {
    c as int >= 0x1_0000
  }

  /** The code units of one character: itself, or a surrogate pair. */
  function Utf16Char(c: char): (units: JsString)
    ensures |units| == (if IsAstral(c) then 2 else 1)
  {
    var v := c as int;
    if v < 0x1_0000 then [v as CodeUnit]
    else [(0xD800 + (v - 0x1_0000) / 0x400) as CodeUnit, (0xDC00 + (v - 0x1_0000) % 0x400) as CodeUnit]
  }

  /** The UTF-16 encoding of a string of Unicode scalar values: how the browser
      stores a string typed as text. */
  function Utf16(s: string): JsString
  {
    if |s| == 0 then [] else Utf16Char(s[0]) + Utf16(s[1..])
  }

  function AstralCount(s: string): nat
  {
    if |s| == 0 then 0 else (if IsAstral(s[0]) then 1 else 0) + AstralCount(s[1..])
  }

  /** The JavaScript length of a text is its character count plus one per astral character. */
  lemma {:induction false} Utf16Length(s: string)
    ensures |Utf16(s)| == |s| + AstralCount(s)
    ensures |Utf16(s)| >= |s|
  {
    if |s| > 0 {
      Utf16Length(s[1..]);
    }
  }

  /** A text made only of astral characters (emoji, for one) is twice as long in JavaScript. */
  lemma {:induction false} AllAstralDoubles(s: string)
    requires forall i :: 0 <= i < |s| ==> IsAstral(s[i])
    ensures |Utf16(s)| == 2 * |s|
  {
    if |s| > 0 {
      AllAstralDoubles(s[1..]);
    }
  }

  /** The code units of a text with no astral character, one per character. Used to
      write the program's string constants; `BmpIsUtf16` shows that these are their
      UTF-16 encodings. */
  function Bmp(s: string): (units: JsString)
    requires forall i :: 0 <= i < |s| ==> !IsAstral(s[i])
    ensures |units| == |s|
    ensures forall i :: 0 <= i < |s| ==> units[i] == s[i] as int
  {
    seq(|s|, i requires 0 <= i < |s| && !IsAstral(s[i]) => s[i] as int as CodeUnit)
  }

  /** `Bmp` is the UTF-16 encoding wherever it is defined. */
  lemma {:induction false} BmpIsUtf16(s: string)
    requires forall i :: 0 <= i < |s| ==> !IsAstral(s[i])
    ensures Bmp(s) == Utf16(s)
  {
    if |s| > 0 {
      BmpIsUtf16(s[1..]);
      assert Bmp(s) == [s[0] as int as CodeUnit] + Bmp(s[1..]);
    }
  }

  /** A value that can cross `postMessage` (the structured-clone subset used here).
      Numbers are mathematical reals: NaN and the infinities are not representable.
      Structured clone keeps an array's own named properties as well as its
      elements; `props` holds the named ones (never an index or `length`). A cloned
      value carries no functions. */
  datatype JsValue =
    | Undefined
    | Null
    | Bool(b: bool)
    | Number(n: real)
    | Str(s: JsString)
    | Array(items: seq<JsValue>, props: map<JsString, JsValue>)
    | Object(fields: map<JsString, JsValue>)

  /** The result of `typeof`, restricted to the kinds above. */
  datatype JsType = UndefinedType | ObjectType | BooleanType | NumberType | StringType

  function TypeOf(v: JsValue): (t: JsType)
    ensures t == ObjectType <==> v.Null? || v.Array? || v.Object?
  {
    match v
    case Undefined => UndefinedType
    case Null => ObjectType
    case Bool(_) => BooleanType
    case Number(_) => NumberType
    case Str(_) => StringType
    case Array(_, _) => ObjectType
    case Object(_) => ObjectType
  }

  /** JavaScript truthiness (`!!v`). */
  predicate Truthy(v: JsValue) {
    match v
    case Undefined => false
    case Null => false
    case Bool(b) => b
    case Number(n) => n != 0.0
    case Str(s) => |s| > 0
    case Array(_, _) => true
    case Object(_) => true
  }

  /** Objects and arrays: the values with own named properties. */
  predicate HasProps(v: JsValue) {
    v.Object? || v.Array?
  }

  /** The own named properties of a value. */
  function OwnProps(v: JsValue): (props: map<JsString, JsValue>)
    ensures !HasProps(v) ==> props == map[]
  {
    match v
    case Object(fields) => fields
    case Array(_, named) => named
    case _ => map[]
  }

  /** `v?.key`: an own property of an object or array, `undefined` for anything
      else. This is the JavaScript result for every key the gateway reads (`type`,
      `data`, `projectId`, `score`, `coins`, `message`): none of them is an array
      index, `length`, or defined by a built-in prototype. */
  function Get(v: JsValue, key: JsString): (r: JsValue)
    ensures !HasProps(v) ==> r == Undefined
    ensures key in OwnProps(v) ==> r == OwnProps(v)[key]
    ensures key !in OwnProps(v) ==> r == Undefined
  {
    var props := OwnProps(v);
    if key in props then props[key] else Undefined
  }

  /** `v.key` without optional chaining: it throws a TypeError (None) on `undefined`
      and `null`, and reads like `Get` otherwise. */
  function Access(v: JsValue, key: JsString): (r: Option<JsValue>)
    ensures r.None? <==> v.Undefined? || v.Null?
    ensures r.Some? ==> r.value == Get(v, key)
  {
    if v.Undefined? || v.Null? then None else Some(Get(v, key))
  }

  const ToStringKey: JsString := Bmp("toString")
  const JoinKey: JsString := Bmp("join")

  /** Whether converting `v` to a string (a template literal `${v}`) throws.
      Primitives never throw. An own `toString` of a cloned object is not callable,
      so the conversion falls back to `valueOf`, which returns the object itself,
      and a TypeError follows. An array without an own `toString` is joined with
      its inherited `join`, converting every element that is neither `undefined`
      nor `null`; an own `join` is not callable either, and the array then prints
      as `[object Array]` without looking at its elements. */
  predicate ToStringThrows(v: JsValue) {
    match v
    case Object(fields) => ToStringKey in fields
    case Array(items, props) =>
      || ToStringKey in props
      || (JoinKey !in props && exists i :: 0 <= i < |items| && ToStringThrows(items[i]))
    case _ => false
  }

  /** Only objects and arrays can make the conversion throw, and a plain object or
      array without an own `toString` or `join` throws exactly when one of its
      elements does. */
  lemma ToStringThrowsOnlyOnProps(v: JsValue)
    ensures ToStringThrows(v) ==> HasProps(v) && Truthy(v)
    ensures v.Object? && ToStringKey !in v.fields ==> !ToStringThrows(v)
    ensures v.Array? && v.props == map[] ==>
      (ToStringThrows(v) <==> exists i :: 0 <= i < |v.items| && ToStringThrows(v.items[i]))
  {
    if v.Array? && v.props == map[] {
      assert ToStringKey !in v.props && JoinKey !in v.props;
    }
  }

  predicate IsIntegral(x: real) {
    x.Floor as real == x
  }

  /** Rounding toward zero, as JavaScript's `%` uses it. */
  function Trunc(x: real): (t: int)
    ensures x >= 0.0 ==> t == x.Floor
    ensures IsIntegral(x) ==> t as real == x
  {
    if x >= 0.0 then x.Floor
    else
      var k := x.Floor;
      assert IsIntegral(x) ==> -x == (-k) as real && (-x).Floor == -k;
      -((-x).Floor)
  }

  /** JavaScript's `a % b` on finite numbers: the remainder takes the dividend's sign. */
  function JsRemainder(a: real, b: real): real
    requires b != 0.0
  {
    a - b * Trunc(a / b) as real
  }

  /** `a % b === 0` holds exactly when `b` divides `a` a whole number of times. */
  lemma RemainderZeroIff(a: real, b: real)
    requires b != 0.0
    ensures JsRemainder(a, b) == 0.0 <==> IsIntegral(a / b)
  {
    var t := Trunc(a / b);
    assert b * (a / b) == a;
    if JsRemainder(a, b) == 0.0 {
      assert b * (a / b) == b * t as real;
      assert a / b == t as real;
    }
  }

  /** On whole non-negative numbers, JavaScript's `%` agrees with the integer remainder. */
  lemma RemainderOfNaturals(a: nat, b: nat)
    requires b > 0
    ensures JsRemainder(a as real, b as real) == (a % b) as real
  {
    var q, r := a / b, a % b;
    var x := a as real / b as real;
    assert a as real == q as real * b as real + r as real;
    assert x == q as real + r as real / b as real;
    assert 0.0 <= r as real / b as real < 1.0;
    assert x.Floor == q;
  }
}

=== FILE: projects.dfy ===
/** The project showcase of js/projects.js: the static catalogue, the rule table that
    chooses a project modal's action buttons, the notification icon and colour
    lookups, the modal's open/close guard and the cards/game mode toggle. HTML is
    abstracted to tags. */
module Projects {
  import opened Wrappers
  import opened JsValues

  /** The fields of a catalogue entry that decide behaviour. A link that is absent
      and a link that is the empty string are both falsy, so both are "". */
  datatype Project = Project(
    title: string,
    status: string,
    downloadLink: string,
    documentLink: string,
    demoLink: string,
    playableDemo: bool)

  const Completed := "completed"
  const InProgress := "in-progress"

  /** `projectsData`, keyed by project id. */
  const Catalog: map<JsString, Project> := map[
    Bmp("gestion-vols") :=
      Project("Gestion des vols - GESTION'AIR", Completed, "file/projet c.zip", "file/C.pdf", "", false),
    Bmp("transport-propre") :=
      Project("Université & Transports Propres", Completed, "file/projet site.zip", "", "", false),
    Bmp("planification-aerien") :=
      Project("Planification Transport Aérien", Completed, "file/projet java.zip", "file/Sujet2024-_5_-_1_.pdf", "", false),
    Bmp("street-fighter") :=
      Project("Jeu de Combat Street Fighter", Completed, "file/street-fighter.zip", "", "", false),
    Bmp("app-communicante") :=
      Project("Application Communicante", InProgress, "file/app-communicante.zip", "file/cahier des charge.pdf", "", false)
  ]

  /** A button of the project modal. */
  datatype Action =
    | Download(href: string)
    | ShowDocument(file: string)
    | ShowDemo(url: string)
    | PlayGame
    | InDevelopment

  /** The position of each kind of button in the modal's fixed order. */
  function Rank(a: Action): nat {
    match a
    case Download(_) => 0
    case ShowDocument(_) => 1
    case ShowDemo(_) => 2
    case PlayGame => 3
    case InDevelopment => 4
  }

  /** The buttons of a modal are listed in strictly increasing rank. */
  ghost predicate StrictlyRanked(acts: seq<Action>) {
    forall i, j :: 0 <= i < j < |acts| ==> Rank(acts[i]) < Rank(acts[j])
  }

  /** One row of the rule table: the button when its condition holds, nothing otherwise. */
  function Emit(condition: bool, a: Action): (s: seq<Action>)
    ensures a in s <==> condition
    ensures forall x :: x in s ==> x == a
  {
    if condition then [a] else []
  }

  /** A row placed before rows of higher rank keeps the list ranked. */
  lemma EmitBeforeRanked(condition: bool, a: Action, rest: seq<Action>)
    requires StrictlyRanked(rest)
    requires forall x :: x in rest ==> Rank(a) < Rank(x)
    ensures StrictlyRanked(Emit(condition, a) + rest)
    ensures forall x :: x in Emit(condition, a) + rest ==> Rank(a) <= Rank(x)
  {
    var s := Emit(condition, a) + rest;
    forall i, j | 0 <= i < j < |s|
      ensures Rank(s[i]) < Rank(s[j])
    {
      if condition && i == 0 {
        assert s[j] in rest;
      } else {
        var k := |Emit(condition, a)|;
        assert s[i] == rest[i - k] && s[j] == rest[j - k];
      }
    }
  }

  /** The last three rows of `generateModalActions`: demo, play, in development. */
  function LaterActions(p: Project): seq<Action> {
    Emit(p.demoLink != "", ShowDemo(p.demoLink))
    + (Emit(p.playableDemo, PlayGame)
    + Emit(p.status == InProgress, InDevelopment))
  }

  /** `generateModalActions`: one rule per kind of button, appended in order. */
  function ModalActions(p: Project): seq<Action> {
    Emit(p.downloadLink != "" && p.status == Completed, Download(p.downloadLink))
    + (Emit(p.documentLink != "", ShowDocument(p.documentLink))
    + LaterActions(p))
  }

  lemma LaterActionsRanked(p: Project)
    ensures StrictlyRanked(LaterActions(p))
    ensures forall x :: x in LaterActions(p) ==> 1 < Rank(x)
  {
    var dev := Emit(p.status == InProgress, InDevelopment);
    var play := Emit(p.playableDemo, PlayGame) + dev;
    assert StrictlyRanked(play) && forall x :: x in play ==> 2 < Rank(x) by {
      EmitBeforeRanked(p.playableDemo, PlayGame, dev);
    }
    EmitBeforeRanked(p.demoLink != "", ShowDemo(p.demoLink), play);
  }

  /** The buttons always come in the order download, document, demo, play, in
      development, each at most once. */
  lemma ModalActionsOrdered(p: Project)
    ensures StrictlyRanked(ModalActions(p))
    ensures |ModalActions(p)| <= 5
  {
    var later := LaterActions(p);
    LaterActionsRanked(p);
    var doc := Emit(p.documentLink != "", ShowDocument(p.documentLink)) + later;
    assert StrictlyRanked(doc) && forall x :: x in doc ==> 0 < Rank(x) by {
      EmitBeforeRanked(p.documentLink != "", ShowDocument(p.documentLink), later);
    }
    EmitBeforeRanked(p.downloadLink != "" && p.status == Completed, Download(p.downloadLink), doc);
  }

  /** Each button is present exactly when its rule's condition holds, and every
      button carries the project's own link. */
  lemma ModalActionsPresence(p: Project)
    ensures Download(p.downloadLink) in ModalActions(p) <==> p.downloadLink != "" && p.status == Completed
    ensures ShowDocument(p.documentLink) in ModalActions(p) <==> p.documentLink != ""
    ensures ShowDemo(p.demoLink) in ModalActions(p) <==> p.demoLink != ""
    ensures PlayGame in ModalActions(p) <==> p.playableDemo
    ensures InDevelopment in ModalActions(p) <==> p.status == InProgress
    ensures forall a :: a in ModalActions(p) ==>
      a == Download(p.downloadLink) || a == ShowDocument(p.documentLink) ||
      a == ShowDemo(p.demoLink) || a == PlayGame || a == InDevelopment
  {
    var dev := Emit(p.status == InProgress, InDevelopment);
    var play := Emit(p.playableDemo, PlayGame) + dev;
    assert forall x :: x in play <==> (p.playableDemo && x == PlayGame) || x in dev;
    var demo := LaterActions(p);
    assert forall x :: x in demo <==> (p.demoLink != "" && x == ShowDemo(p.demoLink)) || x in play;
    var doc := Emit(p.documentLink != "", ShowDocument(p.documentLink)) + demo;
    assert forall x :: x in doc <==> (p.documentLink != "" && x == ShowDocument(p.documentLink)) || x in demo;
    var all := Emit(p.downloadLink != "" && p.status == Completed, Download(p.downloadLink)) + doc;
    assert forall x :: x in all <==> (p.downloadLink != "" && p.status == Completed && x == Download(p.downloadLink)) || x in doc;
  }

  /** A project still in development never offers a download, even when it has an
      archive, and it always shows the disabled "in development" button. */
  lemma InProgressNeverDownloads(p: Project)
    requires p.status == InProgress
    ensures forall a :: a in ModalActions(p) ==> !a.Download?
    ensures InDevelopment in ModalActions(p)
  {
    ModalActionsPresence(p);
  }

  /** The catalogue's one project in development shows its document and the
      disabled button, not its archive. */
  lemma AppCommunicanteActions()
    ensures Bmp("app-communicante") in Catalog
    ensures ModalActions(Catalog[Bmp("app-communicante")])
            == [ShowDocument("file/cahier des charge.pdf"), InDevelopment]
  {
  }

  /** Names every plain object inherits from `Object.prototype`; reading one of them
      from an object literal yields a function (or the prototype), which is truthy. */
  const ObjectPrototypeKeys: set<JsString> := {
    Bmp("constructor"), Bmp("hasOwnProperty"), Bmp("isPrototypeOf"),
    Bmp("propertyIsEnumerable"), Bmp("toLocaleString"), Bmp("toString"),
    Bmp("valueOf"), Bmp("__proto__"), Bmp("__defineGetter__"),
    Bmp("__defineSetter__"), Bmp("__lookupGetter__"), Bmp("__lookupSetter__")
  }

  /** What `table[key]` yields when it is truthy. */
  datatype Lookup = Entry(text: string) | InheritedMember(name: JsString)

  const Info: JsString := Bmp("info")
  const Success: JsString := Bmp("success")
  const Warning: JsString := Bmp("warning")
  const Error: JsString := Bmp("error")

  const Icons: map<JsString, string> := map[
    Info := "ℹ️", Success := "✅", Warning := "⚠️", Error := "❌"]

  const Colors: map<JsString, string> := map[
    Info := "#3b82f6", Success := "#10b981", Warning := "#f59e0b", Error := "#ef4444"]

  /** `table[key] || table.info` for an object literal whose values are non-empty
      strings. */
  function LookupOrInfo(table: map<JsString, string>, key: JsString): (r: Lookup)
    requires Info in table
    requires forall k :: k in table ==> table[k] != ""
    ensures key in table ==> r == Entry(table[key])
    ensures key !in table && key !in ObjectPrototypeKeys ==> r == Entry(table[Info])
    ensures r.InheritedMember? ==> key in ObjectPrototypeKeys && key !in table
  {
    if key in table then Entry(table[key])
    else if key in ObjectPrototypeKeys then InheritedMember(key)
    else Entry(table[Info])
  }

  /** `getNotificationIcon`. */
  function NotificationIcon(kind: JsString): Lookup {
    LookupOrInfo(Icons, kind)
  }

  /** `getNotificationColor`. */
  function NotificationColor(kind: JsString): Lookup {
    LookupOrInfo(Colors, kind)
  }

  /** A notification type outside the four known ones is shown with the `info` icon
      and colour, unless its name is one of `Object.prototype`'s. */
  lemma UnknownKindFallsBackToInfo(kind: JsString)
    requires kind !in {Info, Success, Warning, Error}
    requires kind !in ObjectPrototypeKeys
    ensures NotificationIcon(kind) == NotificationIcon(Info) == Entry(Icons[Info])
    ensures NotificationColor(kind) == NotificationColor(Info) == Entry(Colors[Info])
  {
  }

  /** The four known types each have their own icon and colour. */
  lemma KnownKindsAreDistinct()
    ensures |Icons.Keys| == 4 && Icons.Keys == Colors.Keys
    ensures forall k, k' :: k in Colors && k' in Colors && k != k' ==> Colors[k] != Colors[k']
  {
    assert Info[0] != Success[0] && Info[0] != Warning[0] && Info[0] != Error[0];
    assert Success[0] != Warning[0] && Success[0] != Error[0] && Warning[0] != Error[0];
  }

  /** The project modal: whether it is shown, whether page scrolling is locked, and
      the content it was last filled with. */
  datatype ModalBody = ModalBody(project: Project, actions: seq<Action>)
  datatype Modal = Modal(active: bool, scrollLocked: bool, body: Option<ModalBody>)

  const ClosedModal := Modal(false, false, None)

  /** `openProjectModal` over the catalogue `catalog` (`projectsData`). An id that is
      not a key changes nothing, unless it names a member every object inherits:
      that member is truthy, and building the modal content from it throws (None)
      before anything is shown. */
  function OpenProjectModal(catalog: map<JsString, Project>, m: Modal, id: JsString): (r: Option<Modal>)
    ensures r.None? <==> id !in catalog && id in ObjectPrototypeKeys
    ensures id !in catalog && id !in ObjectPrototypeKeys ==> r == Some(m)
    ensures id in catalog ==> r.Some? && r.value.active && r.value.scrollLocked
    ensures id in catalog ==> r.value.body == Some(ModalBody(catalog[id], ModalActions(catalog[id])))
  {
    if id in catalog then Some(Modal(true, true, Some(ModalBody(catalog[id], ModalActions(catalog[id])))))
    else if id in ObjectPrototypeKeys then None
    else Some(m)
  }

  /** `closeProjectModal`: hides the modal and restores scrolling; the content stays. */
  function CloseProjectModal(m: Modal): (m': Modal)
    ensures !m'.active && !m'.scrollLocked && m'.body == m.body
  {
    m.(active := false, scrollLocked := false)
  }

  /** The Escape key closes the modal only while it is shown. */
  function KeyDown(m: Modal, key: JsString): (m': Modal)
    ensures m.active && key == Bmp("Escape") ==> m' == CloseProjectModal(m)
    ensures !m.active || key != Bmp("Escape") ==> m' == m
  {
    if key == Bmp("Escape") && m.active then CloseProjectModal(m) else m
  }

  /** The listeners of the showcase that drive the modal: a key press anywhere in
      the document, a click on the close button or the overlay, a click on a
      project card's button (carrying its `data-project`). */
  datatype ModalInput = KeyPress(key: JsString) | CloseClick | CardButtonClick(projectId: JsString)

  /** The modal after one input; None when the listener throws (an inherited
      member name as a card's project id). */
  function ModalReact(catalog: map<JsString, Project>, m: Modal, input: ModalInput): (r: Option<Modal>)
    ensures r.None? <==> input.CardButtonClick? && input.projectId !in catalog && input.projectId in ObjectPrototypeKeys
    ensures input.CloseClick? ==> r == Some(CloseProjectModal(m))
    ensures input.KeyPress? ==> r == Some(KeyDown(m, input.key))
    ensures input.CardButtonClick? ==> r == OpenProjectModal(catalog, m, input.projectId)
  {
    match input
    case KeyPress(key) => Some(KeyDown(m, key))
    case CloseClick => Some(CloseProjectModal(m))
    case CardButtonClick(id) => OpenProjectModal(catalog, m, id)
  }

  /** Closing right after opening a known project leaves its content loaded and the
      page scrollable again. */
  lemma OpenThenClose(catalog: map<JsString, Project>, m: Modal, id: JsString)
    requires id in catalog
    ensures var m' := CloseProjectModal(OpenProjectModal(catalog, m, id).value);
      !m'.active && !m'.scrollLocked && m'.body.Some? && m'.body.value.project == catalog[id]
  {
  }

  /** The cards/game toggle of the projects section: each button's `data-mode`
      (None when the attribute is missing), which buttons carry `active`, and which
      of the two views does. */
  datatype ModeView = ModeView(
    buttonModes: seq<Option<JsString>>,
    activeButtons: set<nat>,
    cardsActive: bool,
    gameActive: bool)

  const CardsMode: JsString := Bmp("cards")

  /** The click handler of `initModeToggle` on button `i`: any mode other than
      `cards`, a missing one included, shows the game view. */
  function ClickModeButton(v: ModeView, i: nat): (v': ModeView)
    requires i < |v.buttonModes|
    ensures v'.activeButtons == {i}
    ensures v'.cardsActive != v'.gameActive
    ensures v'.cardsActive <==> v.buttonModes[i] == Some(CardsMode)
    ensures v'.buttonModes == v.buttonModes
  {
    var cards := v.buttonModes[i] == Some(CardsMode);
    v.(activeButtons := {i}, cardsActive := cards, gameActive := !cards)
  }

  /** Clicking the same button again changes nothing. */
  lemma ClickIsIdempotent(v: ModeView, i: nat)
    requires i < |v.buttonModes|
    ensures ClickModeButton(ClickModeButton(v, i), i) == ClickModeButton(v, i)
  {
  }
}

=== FILE: wrappers.dfy ===
/** The optional value used throughout the model: a JavaScript value that may be
    absent, a property read that may throw, a DOM attribute that may be null. */
module Wrappers {

  datatype Option<+T> = None | Some(value: T)
}
